=== FILE: README.md ===
# GoMate core logic in Dafny

GoMate is a React Native travel app for Sri Lanka. Its screens show a fixed catalog of
20 transport routes and destinations. Remote product, search and cart answers are
mapped onto that catalog, and a local copy is the fallback when a call fails. The app
keeps favourites, a session and locally registered users in a key-value store. Forms
are checked by declarative schemas.

This project models the logic of those parts and proves what it promises:

- `transport_service.dfy` (module `TransportService`): the reconciliation of remote
  answers with the catalog (`transformProductToTransport`, `transformCartToTransport`)
  and the decisions of `fetchTransportItems`, `fetchTransportById`, `searchTransport`
  and `fetchAlternativeTransport`. Each HTTP call is an input value
  `Response = Threw | Answered(data)`, so the operations are pure functions.
  The catalog itself is the constant `Catalog.Items` in `catalog.dfy`, transcribed
  from `SRI_LANKAN_TRANSPORT_DATA`, with the image URIs as opaque strings.
  The operations take the catalog as a parameter `catalog` with the requirement
  `IdsArePositions(catalog)`: 20 entries, and the entry at position i has id i + 1.
  The app passes `Catalog.Items`, which meets it (`Catalog.ItemsIdsArePositions`).
  Stating the proofs over such a parameter keeps the 20 long literal records out of
  every proof obligation.
- `favourites_slice.dfy` (module `FavouritesSlice`): the favourites reducer as a class
  whose `favouriteIds` sequence the methods reassign; `toggleFavourite` runs
  `indexOf` (`Seqs.IndexOf`, a loop) and then splices or pushes. It is proved against
  the function `Toggled`, and the lemmas state the toggle's properties.
- `storage.dfy` (module `Storage`): `storageService` as a class holding a map from
  the five keys to typed values, with getters as functions and savers/removers as
  methods that state the whole new map.
- `auth_service.dfy` (module `AuthService`): `login` as a first-match cascade over the
  demo accounts, the stored table and the remote answer; `register` as a method that
  writes into the store.
- `transport_slice.dfy` (module `TransportSlice`): the load-state reducers as a class
  with the invariant that a load in progress carries no error.
- `validation.dfy` (module `Validation`): the login, register, edit-profile and
  change-password schemas as predicates on strings.
- `home_screen.dfy` (module `HomeScreen`): `getGreeting`, the empty-query rule of
  `handleSearch`, `getFilteredSections` and the favourites list that
  `handleFavouritePress` saves.
- Shared: `wrappers.dfy` (Option, Result), `types.dfy` (User, TransportItem),
  `text.dfy` (ASCII lower-casing, `includes`, `trim`, decimal printing),
  `seqs.dfy` (filter, duplicate-freedom, `indexOf`).

Three behaviours of the code worth noting:

- A listing answer with a present but empty `products` array gives `[]`, not the
  catalog. An empty array is truthy in JavaScript.
- A search whose call throws filters the catalog by title and description only.
  A search that finds nothing remotely tests six fields.
- A null record among the mapped products makes `.map` throw, so the catch path runs.

Ratings are written in tenths (4.8 is 48).

## Model

| member | source | states |
|---|---|---|
| Catalog.ItemsIdsArePositions | src/services/transportService.ts:10-304 | the catalog has exactly 20 entries and the entry at position i has id i + 1, so its ids are distinct |
| TransportService.Take | src/services/transportService.ts:351 | `slice(0, n)` keeps the first min(length, n) elements unchanged |
| TransportService.TransformProduct | src/services/transportService.ts:308-321 | the result equals catalog entry index mod 20 in every field but the id; the id is the remote id when it is truthy (present and non-zero), else the entry's own id |
| TransportService.MapProducts | src/services/transportService.ts:349-352 | mapping keeps the length, and element k is product k transformed at position k |
| TransportService.FetchTransportItems | src/services/transportService.ts:342-369 | a thrown call or a missing `products` gives the catalog unchanged and in order; a present array gives min(L, 20) items, item k mapped from product k at index k (so an empty array gives []); a null record among them gives the catalog |
| TransportService.FilterKeepsIdsIncreasing | src/services/transportService.ts:410-419 | filtering a list with increasing ids keeps the ids increasing, so catalog selections stay in catalog order |
| TransportService.SelectFromCatalog | src/services/transportService.ts:410-419 | a catalog filter holds exactly the entries that pass the test, with ids increasing as in the catalog |
| TransportService.MatchesTitleOrDescription | src/services/transportService.ts:426-429 | the catch-path test: the empty query matches every item, and a query longer than both title and description matches none |
| TransportService.MatchesAnyField | src/services/transportService.ts:410-417 | the no-result test accepts every item the catch-path test accepts, and on an item without location, route, from and to the two tests agree |
| TransportService.SearchTransport | src/services/transportService.ts:393-431 | non-empty remote results give at most 10 items mapped by position; no remote results give exactly the catalog entries whose lower-cased title, description, location, route, from or to contains the lower-cased query, in catalog order; a thrown call tests title and description only |
| TransportService.FindById | src/services/transportService.ts:382 | `find(...) or null` gives nothing exactly when no entry has the id, and otherwise the first entry with that id |
| TransportService.FindInCatalog | src/services/transportService.ts:382-385 | looking up id n in the catalog gives entry n - 1 when 1 <= n <= 20 and null otherwise |
| TransportService.FetchTransportById | src/services/transportService.ts:374-387 | an answered record gives catalog entry n mod 20 with the record's truthy id or the entry's id; a thrown call or a null answer gives the catalog entry with id n, or null |
| TransportService.TransformCart | src/services/transportService.ts:325-334 | a cart gives min(products, 3) items; item k is catalog entry (cart id + k) mod 20 with id cart id * 100 + k |
| TransportService.FlattenCarts | src/services/transportService.ts:442 | the flattened carts hold exactly the sum over the carts of min(products, 3) items |
| TransportService.ItemsBeforeStep | src/services/transportService.ts:442 | the items of cart j end exactly where those of cart j + 1 begin, so the carts' items tile the result without gaps |
| TransportService.FlattenCartsLayout | src/services/transportService.ts:325-334 | the items of cart j, from position ItemsBefore(cs, j) on, are exactly its transformCartToTransport items in order: item k is catalog entry (cart id + k) mod 20 with id cart id * 100 + k |
| TransportService.FlattenCartsIdShape | src/services/transportService.ts:325-334 | every flattened item's id is cart id * 100 + k with k < 3 for one of the carts |
| TransportService.FetchAlternativeTransport | src/services/transportService.ts:437-451 | a thrown call or missing `carts` gives []; a null cart or a cart without products anywhere in the list gives []; otherwise the result is the flattened carts |
| TransportService.FlattenCartsIdsDistinct | src/services/transportService.ts:325-334 | carts with distinct ids give items with pairwise distinct ids |
| Seqs.Filter | src/screens/home/HomeScreen.tsx:136-137 | `filter` keeps exactly the elements that pass the test (an element of the input is in the result iff it passes), and never more elements than the input has |
| Seqs.KeptPositions | src/screens/home/HomeScreen.tsx:136-137 | `filter` keeps the elements at exactly the positions whose element passes the test, at increasing positions |
| Seqs.FilterSelectsInOrder | src/screens/home/HomeScreen.tsx:136-137 | the filtered list is the passing elements of the list, each kept once and in their original order |
| Seqs.IndexOf | src/redux/slices/favouritesSlice.ts:14 | `indexOf` returns -1 exactly when the id is absent, and otherwise the position of its first occurrence |
| FavouritesSlice.RemoveFirst | src/redux/slices/favouritesSlice.ts:16-17 | `splice(index, 1)` at the first occurrence removes exactly that element and keeps the rest in order; an absent id leaves the list as it is |
| FavouritesSlice.Toggled | src/redux/slices/favouritesSlice.ts:12-21 | as a bag of ids, toggling a present id removes one copy and toggling an absent id adds one, so the length changes by one |
| FavouritesSlice.ToggleSpec | src/redux/slices/favouritesSlice.ts:14-20 | toggling an absent id appends it after an unchanged prefix; toggling a present id removes exactly its first occurrence, shortening the list by one |
| FavouritesSlice.ToggleOthers | src/redux/slices/favouritesSlice.ts:12-21 | toggling x leaves the membership of every other id unchanged |
| FavouritesSlice.ToggleNoDup | src/redux/slices/favouritesSlice.ts:12-21 | toggling keeps a duplicate-free list duplicate-free and flips whether x is in it |
| FavouritesSlice.ToggleTwiceAbsent | src/redux/slices/favouritesSlice.ts:12-21 | on any list, toggling an absent id twice restores the list |
| FavouritesSlice.ToggleTwicePresent | src/redux/slices/favouritesSlice.ts:12-21 | on a duplicate-free list, toggling a present id twice keeps the same ids but moves that id to the end |
| FavouritesSlice.ToggleTwiceReorders | src/redux/slices/favouritesSlice.ts:12-21 | [1, 2] toggled at 1 twice is [2, 1]: a double toggle does not always restore the list |
| FavouritesSlice.FavouritesState.constructor | src/redux/slices/favouritesSlice.ts:4-6 | the initial favourites list is empty |
| FavouritesSlice.FavouritesState.ToggleFavourite | src/redux/slices/favouritesSlice.ts:12-21 | the new list is the toggle of the old one |
| FavouritesSlice.FavouritesState.SetFavourites | src/redux/slices/favouritesSlice.ts:22-24 | the list becomes the payload |
| FavouritesSlice.FavouritesState.ClearFavourites | src/redux/slices/favouritesSlice.ts:25-27 | the list becomes empty |
| TransportSlice.TransportState.constructor | src/redux/slices/transportSlice.ts:4-8 | the initial state has no items, is not loading, has no error, and satisfies the invariant |
| TransportSlice.TransportState.FetchTransportStart | src/redux/slices/transportSlice.ts:14-17 | loading, error cleared, items unchanged; the invariant holds afterwards |
| TransportSlice.TransportState.FetchTransportSuccess | src/redux/slices/transportSlice.ts:18-22 | items become the payload, not loading, no error; the invariant holds afterwards |
| TransportSlice.TransportState.FetchTransportFailure | src/redux/slices/transportSlice.ts:23-26 | the error is the message, not loading, items unchanged; the invariant holds afterwards |
| Storage.KeysDistinct | src/utils/storage.ts:3-7 | the five storage keys are pairwise distinct |
| Storage.StorageService.constructor | src/utils/storage.ts:9 | a new store is empty and well-typed |
| Storage.StorageService.GetAuthToken | src/utils/storage.ts:19-26 | the token is absent exactly when its key is |
| Storage.StorageService.GetUserData | src/utils/storage.ts:45-53 | the user is absent exactly when its key is |
| Storage.StorageService.GetFavourites | src/utils/storage.ts:72-80 | a never-written favourites key reads as [] |
| Storage.StorageService.GetTheme | src/utils/storage.ts:91-99 | a never-written theme key reads as false |
| Storage.StorageService.Table | src/utils/storage.ts:117-118 | a never-written users table reads as the empty table |
| Storage.StorageService.GetRegisteredUser | src/utils/storage.ts:126-142 | a user is returned exactly when the table has an entry for the username whose password equals the given one, and it is that entry's user; otherwise null, also without a table |
| Storage.StorageService.SaveAuthToken | src/utils/storage.ts:11-17 | only the token key changes, and the token reads back |
| Storage.StorageService.RemoveAuthToken | src/utils/storage.ts:28-34 | only the token key is removed, and the token reads as null |
| Storage.StorageService.SaveUserData | src/utils/storage.ts:37-43 | only the user key changes, and the user reads back |
| Storage.StorageService.RemoveUserData | src/utils/storage.ts:55-61 | only the user key is removed, and the user reads as null |
| Storage.StorageService.SaveFavourites | src/utils/storage.ts:64-70 | only the favourites key changes, and the ids read back in the same order |
| Storage.StorageService.SaveTheme | src/utils/storage.ts:83-89 | only the theme key changes, and the flag reads back |
| Storage.StorageService.ClearAll | src/utils/storage.ts:102-112 | exactly the token, user and favourites keys are removed and read as their defaults; theme and registered users are unchanged |
| Storage.StorageService.SaveRegisteredUser | src/utils/storage.ts:115-124 | the table (empty when absent) gets entry username := (password, user); that user logs in locally with that password, and every other username's lookups are unchanged |
| AuthService.DemoUsernames | src/services/authService.ts:8-42 | the demo table has exactly the accounts demo, john and sarah, and each record carries its account's username |
| AuthService.DemoTokens | src/services/authService.ts:8-42 | a fact about the constant `DEMO_ACCOUNTS` table: each account's token is "demo-token-" followed by the decimal text of its id |
| AuthService.DemoIdsDistinct | src/services/authService.ts:8-42 | the three demo ids are pairwise different |
| AuthService.Login | src/services/authService.ts:58-90 | login fails exactly when there is no demo match, no stored match and the remote call failed, and then always with "Invalid username or password" |
| AuthService.DemoWins | src/services/authService.ts:61-64 | a demo username with its password gives the demo record whatever the stored table and the remote answer are |
| AuthService.DemoWrongPasswordFallsThrough | src/services/authService.ts:61-74 | a demo username with another password is not rejected: a stored entry with that password is returned |
| AuthService.LocalBeforeRemote | src/services/authService.ts:66-74 | without a demo match, a stored match is returned whatever the remote answer is |
| AuthService.RemoteLast | src/services/authService.ts:76-89 | with no demo and no stored match, the remote user is returned, or the single error when the call failed |
| AuthService.Register | src/services/authService.ts:92-107 | the user has the given id clock, token "local-token-" + the token clock, and the form's username, email and names; it is stored under the username with the password; logging in with them afterwards gives this user unless they match a demo account, which still wins |
| Text.NatToString | src/services/authService.ts:101 | `String(n)` of a clock reading is a non-empty string of decimal digits with no leading zero unless n is 0 |
| Text.NatToStringRoundTrip | src/services/authService.ts:101 | the decimal text of the clock reading denotes that number |
| Text.Lower | src/services/transportService.ts:409 | lower-casing keeps the length and maps each character |
| Text.Includes | src/services/transportService.ts:411 | `includes` holds exactly when the needle occurs at some position |
| Text.Trim | src/screens/home/HomeScreen.tsx:86 | `trim()` returns a contiguous part of the string whose removed prefix and suffix are all white space, and a non-empty result starts and ends with a character that is not white space |
| Text.TrimEmptyIffBlank | src/screens/home/HomeScreen.tsx:86 | a string trims to '' exactly when it is all white space |
| Validation.NameValid | src/utils/validation.ts:13-18 | a first or last name is valid exactly when it has at least 2 characters |
| Validation.UsernameValid | src/utils/validation.ts:22-25 | a register username is valid exactly when it has at least 3 characters, all in [A-Za-z0-9_] |
| Validation.StrongPassword | src/utils/validation.ts:26-31 | a new password is valid exactly when it has at least 6 characters, an upper-case letter, a lower-case letter and a digit |
| Validation.LoginValid | src/utils/validation.ts:3-10 | a login form is valid exactly when the username has at least 3 characters and the password at least 6 |
| Validation.RegisterValid | src/utils/validation.ts:12-35 | a register form is valid exactly when both names have 2+ characters, the email is present and well-formed, the username and password pass their rules, and the confirmation equals the password |
| Validation.EditProfileValid | src/utils/validation.ts:37-47 | an edit-profile form is valid exactly when both names have 2+ characters and the email is present and well-formed |
| Validation.ChangePasswordValid | src/utils/validation.ts:49-63 | a change-password form is valid exactly when the current password has 6+ characters, the new one passes the password rules and differs from it, and the confirmation equals the new one |
| Validation.RegisterImpliesLogin | src/utils/validation.ts:3-31 | a username and password the register form accepts are accepted by the login form |
| Validation.RegisterAgreesWithEditProfile | src/utils/validation.ts:12-47 | names and email the register form accepts are accepted by the edit-profile form |
| Validation.NewPasswordIsStrong | src/utils/validation.ts:49-59 | an accepted new password passes the register password rules and the login length rule |
| HomeScreen.Greeting | src/screens/home/HomeScreen.tsx:45-50 | Morning exactly for hours before 12, Afternoon exactly for 12 to 17, Evening exactly from 18 |
| HomeScreen.HandleSearch | src/screens/home/HomeScreen.tsx:84-98 | a query that is all white space refreshes; any other query is searched unchanged |
| HomeScreen.MatchesHomeQuery | src/screens/home/HomeScreen.tsx:126-132 | the screen's test accepts every item the title-or-description test accepts, and only items the six-field test accepts |
| HomeScreen.HomeQueryIgnoresRoute | src/screens/home/HomeScreen.tsx:126-132 | the screen's test is the service's six-field test with the route left out |
| HomeScreen.FilterByQuery | src/screens/home/HomeScreen.tsx:122-133 | a blank query keeps the items; otherwise exactly the items whose title, description, location, from or to contains the lower-cased query (not route) |
| HomeScreen.SearchKeepsOrder | src/screens/home/HomeScreen.tsx:125-133 | a non-blank search keeps the items at exactly the matching positions, each once and in list order |
| HomeScreen.PartitionDestinationsRoutes | src/screens/home/HomeScreen.tsx:136-137 | destinations and routes together are the filtered items, none lost or added |
| HomeScreen.Destinations | src/screens/home/HomeScreen.tsx:136 | the destinations are exactly the filtered items of type destination (order: KindsKeepOrder) |
| HomeScreen.Routes | src/screens/home/HomeScreen.tsx:137 | the routes are exactly the filtered items of type bus, train, car or tuk-tuk (order: KindsKeepOrder) |
| HomeScreen.KindsKeepOrder | src/screens/home/HomeScreen.tsx:136-137 | the destinations and the routes are the filtered items at exactly the positions of their kind, each once and in list order |
| HomeScreen.BuildSections | src/screens/home/HomeScreen.tsx:139-154 | from given destinations and routes: at most two sections, none empty; "Transport Routes" holds the routes and the other sections the destinations; the chip decides the titles, with "Popular Destinations" before "Transport Routes" for the all chip |
| HomeScreen.FilteredSections | src/screens/home/HomeScreen.tsx:121-155 | at most two sections, none empty; "Transport Routes" holds the routes and the other sections the destinations; the destinations chip gives at most one "Destinations" section, the routes chip at most one "Transport Routes" section, and the all chip "Popular Destinations" before "Transport Routes" |
| HomeScreen.SectionKinds | src/screens/home/HomeScreen.tsx:136-154 | an item is a route exactly when its section is "Transport Routes" |
| HomeScreen.SectionsMembership | src/screens/home/HomeScreen.tsx:121-155 | an item is shown exactly when it is loaded, passes the search and is admitted by the chip |
| HomeScreen.AllSectionsCoverFiltered | src/screens/home/HomeScreen.tsx:146-154 | with the all chip the sections hold every filtered item exactly once |
| HomeScreen.PersistedFavourites | src/screens/home/HomeScreen.tsx:105-107 | the saved list holds the id exactly when the old one did not, and every other id as before; an absent id is appended at the end of the unchanged list |
| HomeScreen.PersistedKeepsOrder | src/screens/home/HomeScreen.tsx:105-106 | removing a present id keeps exactly the entries at the positions holding other ids, duplicates included, in list order |
| HomeScreen.PersistedMatchesToggle | src/screens/home/HomeScreen.tsx:100-108 | on a duplicate-free list the saved list equals the reducer's toggle result |
| HomeScreen.PersistedDivergesOnDuplicates | src/screens/home/HomeScreen.tsx:100-108 | on [5, 5] the saved list is [] while the reducer keeps [5] |

## Left out

- HTTP: URLs, query parameters, `encodeURIComponent`, timeouts, console logging and `getCurrentUser` are not modelled. Each call is an input value that either threw or answered.
- Remote answers of other shapes are not modelled: a `products` or `carts` value that is truthy but not an array, a falsy `data` other than null, non-numeric ids, a `products.length` read from a non-array.
- `fetchTransportById` and cart ids are natural numbers. A negative or fractional id makes JavaScript's `%` give an index outside the catalog, and that is not modelled.
- Ratings and prices are integers (ratings in tenths); floating point is not modelled.
- Lower-casing is ASCII only. Lengths count characters, while JavaScript counts UTF-16 code units, which differs for characters outside the Basic Multilingual Plane.
- Storage: asynchrony and the swallowing of I/O failures into defaults are not modelled. JSON stringify/parse is taken as the identity on typed values. A key holding a value of another kind is excluded by `Valid()`. Usernames that are special JavaScript property names (such as `__proto__`) are not modelled.
- `register`'s catch path ("Registration failed") is not modelled: with storage errors swallowed nothing in its try block throws.
- The remote login answer is modelled as the six user fields the code copies; missing fields in it are not modelled.
- `Date.now()` (read twice by `register`) and the hour of `new Date().getHours()` are parameters.
- The email format check of the validation library is the parameter `isEmail`; error messages and their order are not modelled.
- Async interleavings of the favourites read-modify-write across screens, the Redux store wiring, `loadInitialData` and `handleRefresh` dispatch sequences, and all presentation and navigation code are not modelled.
- FavouritesSlice.ToggleTwiceAbsent: restoring the list by a double toggle is stated for absent ids only; for a present id the id moves to the end (ToggleTwicePresent, ToggleTwiceReorders).
- HomeScreen.PersistedMatchesToggle: stated for duplicate-free lists only; with duplicates the saved list and the reducer state differ (PersistedDivergesOnDuplicates).

=== FILE: auth_service.dfy ===
/**
 * authService: login tries the built-in demo accounts, then the locally registered
 * users, then the remote login; register stores a new user locally. The remote call
 * is an input value and the two clock readings of register are parameters.
 */
module AuthService {
  import opened Wrappers
  import opened Types
  import opened Text
  import opened Storage

  datatype Credentials = Credentials(username: string, password: string)

  datatype RegisterData = RegisterData(username: string, email: string, password: string, firstName: string, lastName: string)

  datatype DemoAccount = DemoAccount(password: string, userData: User)

  /** The demo accounts that work on every device. */
  const DemoAccounts: map<string, DemoAccount> := map[
    "demo" := DemoAccount("demo123", User(1001, "demo", "demo@gomate.com", "Demo", "User", Some("demo-token-1001"))),
    "john" := DemoAccount("john123", User(1002, "john", "john@gomate.com", "John", "Doe", Some("demo-token-1002"))),
    "sarah" := DemoAccount("sarah123", User(1003, "sarah", "sarah@gomate.com", "Sarah", "Silva", Some("demo-token-1003")))
  ]

  /** Each demo account's record carries the account's own username. */
  lemma DemoUsernames()
    ensures DemoAccounts.Keys == {"demo", "john", "sarah"}
    ensures forall u :: u in DemoAccounts ==> DemoAccounts[u].userData.username == u
  {
  }

  /** Each demo token is "demo-token-" followed by the account's id. */
  lemma DemoTokens()
    ensures forall u :: u in DemoAccounts ==>
      DemoAccounts[u].userData.token == Some("demo-token-" + NatToString(DemoAccounts[u].userData.id))
  {
    assert NatToString(100) == "100" by {
      assert NatToString(10) == "10";
    }
    forall u | u in DemoAccounts
      ensures DemoAccounts[u].userData.token == Some("demo-token-" + NatToString(DemoAccounts[u].userData.id))
    {
      if u == "demo" {
        assert NatToString(1001) == "1001";
        assert "demo-token-" + "1001" == "demo-token-1001";
      } else if u == "john" {
        assert NatToString(1002) == "1002";
        assert "demo-token-" + "1002" == "demo-token-1002";
      } else {
        assert NatToString(1003) == "1003";
        assert "demo-token-" + "1003" == "demo-token-1003";
      }
    }
  }

  /** The demo ids are pairwise different. */
  lemma DemoIdsDistinct()
    ensures forall u, v :: u in DemoAccounts && v in DemoAccounts && u != v ==>
      DemoAccounts[u].userData.id != DemoAccounts[v].userData.id
  {
  }

  /** The single message every failed login raises. */
  const LoginError := "Invalid username or password"

  /** Prefix of the token of a locally registered user. */
  const LocalTokenPrefix := "local-token-"

  /**
   * The remote login call: it threw (rejected credentials, network failure), or it
   * answered with the six user fields the login keeps.
   */
  datatype RemoteLogin = RemoteFailed | RemoteAnswered(user: User)

  /** The username names a demo account and the password is that account's. */
  predicate IsDemoMatch(c: Credentials)
  {
    c.username in DemoAccounts && DemoAccounts[c.username].password == c.password
  }

  /**
   * login: the first of the demo record, the stored user and the remote user that
   * applies. It fails, always with the one message, exactly when none applies.
   */
  function Login(c: Credentials, storage: StorageService, remote: RemoteLogin): (r: Result<User, string>)
    reads storage
    requires storage.Valid()
    ensures r.Err? <==> !IsDemoMatch(c) && storage.GetRegisteredUser(c.username, c.password).None? && remote.RemoteFailed?
    ensures r.Err? ==> r.error == LoginError
  {
    if IsDemoMatch(c) then Ok(DemoAccounts[c.username].userData)
    else
      var local := storage.GetRegisteredUser(c.username, c.password);
      if local.Some? then Ok(local.value)
      else if remote.RemoteAnswered? then Ok(remote.user)
      else Err(LoginError)
  }

  /** A demo match returns the demo record whatever the stored table and the remote answer are. */
  lemma DemoWins(c: Credentials, s1: StorageService, s2: StorageService, remote1: RemoteLogin, remote2: RemoteLogin)
    requires s1.Valid() && s2.Valid() && IsDemoMatch(c)
    ensures Login(c, s1, remote1) == Login(c, s2, remote2) == Ok(DemoAccounts[c.username].userData)
  {
  }

  /**
   * A demo username with another password is not rejected: when the table holds that
   * username with that password, the stored user is returned.
   */
  lemma DemoWrongPasswordFallsThrough(c: Credentials, storage: StorageService, remote: RemoteLogin)
    requires storage.Valid() && c.username in DemoAccounts && DemoAccounts[c.username].password != c.password
    requires c.username in storage.Table() && storage.Table()[c.username].password == c.password
    ensures Login(c, storage, remote) == Ok(storage.Table()[c.username].userData)
  {
  }

  /** Without a demo match, a stored user is returned whatever the remote answer is. */
  lemma LocalBeforeRemote(c: Credentials, storage: StorageService, remote: RemoteLogin)
    requires storage.Valid() && !IsDemoMatch(c)
    requires c.username in storage.Table() && storage.Table()[c.username].password == c.password
    ensures Login(c, storage, remote) == Ok(storage.Table()[c.username].userData)
  {
  }

  /** Only when neither the demo table nor the stored table matches is the remote answer used. */
  lemma RemoteLast(c: Credentials, storage: StorageService, remote: RemoteLogin)
    requires storage.Valid() && !IsDemoMatch(c)
    requires !(c.username in storage.Table() && storage.Table()[c.username].password == c.password)
    ensures Login(c, storage, remote) == if remote.RemoteAnswered? then Ok(remote.user) else Err(LoginError)
  {
  }

  /**
   * register: a user with id `idClock`, token "local-token-" followed by `tokenClock`,
   * and the other fields from `d`, saved under `d.username` with `d.password`. Logging
   * in with those credentials afterwards gives this user, unless they match a demo account.
   */
  method Register(storage: StorageService, d: RegisterData, idClock: nat, tokenClock: nat) returns (u: User)
    requires storage.Valid()
    modifies storage
    ensures u.id == idClock && u.token == Some(LocalTokenPrefix + NatToString(tokenClock))
    ensures u.username == d.username && u.email == d.email && u.firstName == d.firstName && u.lastName == d.lastName
    ensures storage.Valid()
    ensures storage.Table() == old(storage.Table())[d.username := Registered(d.password, u)]
    ensures storage.kv == old(storage.kv)[RegisteredUsersKey := UserTable(storage.Table())]
    ensures forall remote :: (Login(Credentials(d.username, d.password), storage, remote) ==
      if IsDemoMatch(Credentials(d.username, d.password)) then Ok(DemoAccounts[d.username].userData) else Ok(u))
  {
    u := User(idClock, d.username, d.email, d.firstName, d.lastName, Some(LocalTokenPrefix + NatToString(tokenClock)));
    storage.SaveRegisteredUser(d.username, d.password, u);
  }
}

=== FILE: catalog.dfy ===
/** The fixed catalog of Sri Lankan destinations and routes compiled into the app. */
module Catalog {
  import opened Wrappers
  import opened Types

  // Image addresses (opaque strings).
  const TransportBus := "https://images.unsplash.com/photo-1544620347-c4fd4a3d5957?w=400"
  const TransportTrain := "https://images.unsplash.com/photo-1474487548417-781cb71495f3?w=400"
  const TransportCar := "https://images.unsplash.com/photo-1549317661-bd32c8ce0db2?w=400"
  const TransportTukTuk := "https://images.unsplash.com/photo-1589308078059-be1415eab4c3?w=400"
  const TransportDestination := "https://images.unsplash.com/photo-1566552881560-0be862a7c445?w=400"
  const DestGalleFort := "https://images.unsplash.com/photo-1566552881560-0be862a7c445?w=800"
  const DestSigiriya := "https://images.unsplash.com/photo-1557129616-e53c61ab0332?w=800"
  const DestMirissaBeach := "https://images.unsplash.com/photo-1559827260-dc66d52bef19?w=800"
  const DestColombo := "https://images.unsplash.com/photo-1598970434795-0c54fe7c0648?w=800"
  const DestElla := "https://images.unsplash.com/photo-1566636889284-f8e1c5c959ea?w=800"
  const DestKandy := "https://images.unsplash.com/photo-1590070355070-ba48027ea6ce?w=800"
  const DestNuwaraEliya := "https://images.unsplash.com/photo-1598948485421-74c8bbcd3d06?w=800"
  const DestYala := "https://images.unsplash.com/photo-1549366021-9f761d450615?w=800"
  const DestAnuradhapura := "https://images.unsplash.com/photo-1582407947304-fd86f028f716?w=800"
  const DestTrincomalee := "https://images.unsplash.com/photo-1559827260-dc66d52bef19?w=800"

  /** The number of catalog entries. */
  const Size := 20

  /** The catalog, in its fixed order (SRI_LANKAN_TRANSPORT_DATA). */
  const Items: seq<TransportItem> := [
    TransportItem(1, "Galle Fort",
      "Historic Dutch fort and UNESCO World Heritage Site. Explore colonial architecture, museums, cafes, and stunning ocean views.",
      Destination, Popular, DestGalleFort,
      None, None, Some(0), Some("Galle, Southern Province"), Some(48),
      None,
      None, None, None, Some("Full Day")),
    TransportItem(2, "Sigiriya Rock Fortress",
      "Ancient rock fortress and palace ruins, 5th century. Climb 1200 steps to see frescoes and breathtaking panoramic views.",
      Destination, Popular, DestSigiriya,
      None, None, Some(30), Some("Sigiriya, Central Province"), Some(49),
      None,
      None, None, None, Some("3-4 Hours")),
    TransportItem(3, "Mirissa Beach",
      "Beautiful coastal town perfect for whale watching, surfing, and relaxing on golden sandy beaches.",
      Destination, Popular, DestMirissaBeach,
      None, None, Some(0), Some("Mirissa, Southern Province"), Some(47),
      None,
      None, None, None, Some("Full Day")),
    TransportItem(4, "Colombo City",
      "Sri Lanka's bustling capital. Visit Galle Face Green, temples, shopping districts, and experience vibrant nightlife.",
      Destination, Active, DestColombo,
      None, None, Some(0), Some("Colombo, Western Province"), Some(45),
      None,
      None, None, None, Some("Full Day")),
    TransportItem(5, "Ella Town",
      "Picturesque hill country town. Trek to Little Adam's Peak, Nine Arch Bridge, and enjoy tea plantations.",
      Destination, Popular, DestElla,
      None, None, Some(0), Some("Ella, Uva Province"), Some(48),
      None,
      None, None, None, Some("2-3 Days")),
    TransportItem(6, "Temple of the Tooth - Kandy",
      "Sacred Buddhist temple housing the tooth relic of Buddha. UNESCO World Heritage Site with cultural shows.",
      Destination, Popular, DestKandy,
      None, None, Some(10), Some("Kandy, Central Province"), Some(47),
      None,
      None, None, None, Some("Half Day")),
    TransportItem(7, "Colombo to Galle Express",
      "Comfortable AC express bus service along the Southern Expressway. Scenic coastal route with modern amenities.",
      Bus, Active, TransportBus,
      Some("06:00"), Some("08:30"), Some(350), None, Some(45),
      Some("Colombo → Panadura → Kalutara → Aluthgama → Hikkaduwa → Galle"),
      Some("Colombo Fort"), Some("Galle Bus Stand"), Some("116 km"), Some("2.5 hours")),
    TransportItem(8, "Kandy to Ella Scenic Route",
      "Popular hill country route through tea estates and mountains. Regular service with panoramic views.",
      Bus, Active, TransportBus,
      Some("07:30"), Some("12:30"), Some(450), None, Some(43),
      Some("Kandy → Nuwara Eliya → Haputale → Ella"),
      Some("Kandy Bus Terminal"), Some("Ella Town"), Some("135 km"), Some("5 hours")),
    TransportItem(9, "Colombo to Jaffna Highway",
      "Long-distance luxury coach service to the Northern Province. Modern AC buses with rest stops.",
      Bus, Active, TransportBus,
      Some("20:00"), Some("05:30"), Some(1200), None, Some(44),
      Some("Colombo → Kurunegala → Anuradhapura → Vavuniya → Jaffna"),
      Some("Colombo Bastian Mawatha"), Some("Jaffna Bus Stand"), Some("396 km"), Some("9.5 hours")),
    TransportItem(10, "Colombo to Kandy Intercity",
      "Premier intercity express train through central highlands. Reserved seating with beautiful mountain scenery.",
      Train, Active, TransportTrain,
      Some("07:00"), Some("09:45"), Some(180), None, Some(46),
      Some("Colombo → Rambukkana → Peradeniya → Kandy"),
      Some("Colombo Fort Railway"), Some("Kandy Railway Station"), Some("120 km"), Some("2.75 hours")),
    TransportItem(11, "Kandy to Ella - Most Scenic Train",
      "World-famous scenic train journey through tea country. One of the most beautiful train rides in the world!",
      Train, Popular, TransportTrain,
      Some("08:47"), Some("15:30"), Some(220), None, Some(49),
      Some("Kandy → Hatton → Nanu Oya → Pattipola → Haputale → Ella"),
      Some("Kandy Railway Station"), Some("Ella Railway Station"), Some("135 km"), Some("6.75 hours")),
    TransportItem(12, "Colombo to Galle Coastal Express",
      "Scenic coastal railway along the Indian Ocean. Experience beach views and fishing villages.",
      Train, Active, TransportTrain,
      Some("06:55"), Some("09:45"), Some(160), None, Some(47),
      Some("Colombo → Mount Lavinia → Kalutara → Bentota → Hikkaduwa → Galle"),
      Some("Colombo Fort Railway"), Some("Galle Railway Station"), Some("115 km"), Some("2.83 hours")),
    TransportItem(13, "Private Car: Colombo Airport to Galle",
      "Comfortable private car hire with experienced driver. Direct route via Southern Expressway.",
      Car, Active, TransportCar,
      None, None, Some(7500), None, Some(48),
      Some("Airport → Southern Expressway → Galle"),
      Some("Bandaranaike Airport"), Some("Galle Fort"), Some("150 km"), Some("2.5 hours")),
    TransportItem(14, "Taxi: Colombo to Sigiriya Day Trip",
      "Full-day hire with driver for Sigiriya and Dambulla temple visits. Comfortable AC vehicle.",
      Car, Upcoming, TransportCar,
      None, None, Some(12000), None, Some(47),
      Some("Colombo → Kurunegala → Dambulla → Sigiriya"),
      Some("Colombo City"), Some("Sigiriya Rock"), Some("169 km"), Some("Full Day (8 hours)")),
    TransportItem(15, "Tuk Tuk: Galle City Tour",
      "Explore Galle Fort and surrounding areas in an authentic Sri Lankan tuk tuk. Fun and affordable!",
      TukTuk, Active, TransportTukTuk,
      None, None, Some(2000), None, Some(46),
      Some("Fort → Lighthouse → Dutch Church → Ramparts → Unawatuna"),
      Some("Galle Fort Main Gate"), Some("Galle City Tour"), Some("15 km"), Some("2 hours")),
    TransportItem(16, "Tuk Tuk: Kandy Temple Circuit",
      "Visit Temple of the Tooth, Botanical Gardens, and viewpoints around Kandy Lake.",
      TukTuk, Active, TransportTukTuk,
      None, None, Some(2500), None, Some(45),
      Some("Dalada Maligawa → Peradeniya Gardens → Bahirawakanda → Kandy Lake"),
      Some("Kandy City Center"), Some("Kandy Attractions"), Some("20 km"), Some("3 hours")),
    TransportItem(17, "Yala National Park",
      "Sri Lanka's most famous wildlife park. Safari to spot elephants, leopards, sloth bears, and exotic birds.",
      Destination, Popular, DestYala,
      None, None, Some(45), Some("Yala, Southern Province"), Some(48),
      None,
      None, None, None, Some("Half Day Safari")),
    TransportItem(18, "Anuradhapura Ancient City",
      "Ancient capital and UNESCO site with Buddhist stupas, monasteries, and sacred Bodhi tree.",
      Destination, Active, DestAnuradhapura,
      None, None, Some(25), Some("Anuradhapura, North Central"), Some(46),
      None,
      None, None, None, Some("Full Day")),
    TransportItem(19, "Nuwara Eliya - Little England",
      "Cool climate hill station with tea plantations, colonial architecture, and Gregory Lake.",
      Destination, Popular, DestNuwaraEliya,
      None, None, Some(0), Some("Nuwara Eliya, Central Province"), Some(47),
      None,
      None, None, None, Some("1-2 Days")),
    TransportItem(20, "Trincomalee Beaches",
      "Pristine beaches on the east coast. Perfect for snorkeling, diving, and whale watching.",
      Destination, Active, DestTrincomalee,
      None, None, Some(0), Some("Trincomalee, Eastern Province"), Some(46),
      None,
      None, None, None, Some("2-3 Days"))
  ]

  /**
   * A catalog of this shape: 20 entries, the entry at position i carrying id i + 1.
   * The reconciliation functions are stated over any such catalog.
   */
  predicate IdsArePositions(c: seq<TransportItem>)
  {
    |c| == Size && forall i :: 0 <= i < |c| ==> c[i].id == i + 1
  }

  /** The app's catalog has that shape, so its ids are distinct. */
  lemma ItemsIdsArePositions()
    ensures IdsArePositions(Items)
  {
  }
}

=== FILE: favourites_slice.dfy ===
/**
 * The favourites reducer: a list of transport ids that a toggle edits in place
 * (`indexOf`, then `splice` or `push`), and that set and clear replace.
 */
module FavouritesSlice {
  import opened Seqs

  /** The position of the first occurrence of `x`. */
  function FirstIndex(s: seq<int>, x: int): (i: nat)
    requires x in s
    ensures i < |s| && s[i] == x && x !in s[..i]
  {
    if s[0] == x then 0
    else
      assert x in s[1..];
      var j := FirstIndex(s[1..], x);
      assert s[..j + 1] == [s[0]] + s[1..][..j];
      j + 1
  }

  /** `s` without its first occurrence of `x`, or `s` itself when `x` does not occur. */
  function RemoveFirst(s: seq<int>, x: int): (r: seq<int>)
    ensures x !in s ==> r == s
    ensures x in s ==> r == s[..FirstIndex(s, x)] + s[FirstIndex(s, x) + 1..]
  {
    if s == [] then []
    else if s[0] == x then s[1..]
    else
      var rest := RemoveFirst(s[1..], x);
      assert x in s ==> [s[0]] + rest == s[..FirstIndex(s, x)] + s[FirstIndex(s, x) + 1..] by {
        if x in s {
          var j := FirstIndex(s[1..], x);
          assert FirstIndex(s, x) == j + 1;
          assert s[..j + 1] == [s[0]] + s[1..][..j];
          assert s[j + 2..] == s[1..][j + 1..];
        }
      }
      [s[0]] + rest
  }

  /** Removing one position of a duplicate-free list leaves it duplicate-free and drops that element. */
  lemma RemoveAtNoDup(s: seq<int>, i: nat)
    requires NoDup(s) && i < |s|
    ensures NoDup(s[..i] + s[i + 1..])
    ensures s[i] !in s[..i] + s[i + 1..]
  {
    var t := s[..i] + s[i + 1..];
    forall a, b | 0 <= a < b < |t|
      ensures t[a] != t[b]
    {
      var a' := if a < i then a else a + 1;
      var b' := if b < i then b else b + 1;
      assert t[a] == s[a'] && t[b] == s[b'];
    }
    forall k | 0 <= k < |t|
      ensures t[k] != s[i]
    {
      var k' := if k < i then k else k + 1;
      assert t[k] == s[k'];
    }
  }

  /**
   * The list after toggleFavourite(x): the first occurrence removed, or `x` appended.
   * As a bag of ids, one copy of a present `x` goes or one copy of an absent `x` comes.
   */
  function Toggled(s: seq<int>, x: int): (r: seq<int>)
    ensures x in s ==> |r| == |s| - 1 && multiset(r) == multiset(s) - multiset{x}
    ensures x !in s ==> |r| == |s| + 1 && multiset(r) == multiset(s) + multiset{x}
  {
    if x in s then
      var i := FirstIndex(s, x);
      assert s == s[..i] + [x] + s[i + 1..];
      RemoveFirst(s, x)
    else
      s + [x]
  }

  /**
   * Toggling an absent id appends it after an unchanged prefix; toggling a present id
   * removes exactly its first occurrence and keeps the rest in order.
   */
  lemma ToggleSpec(s: seq<int>, x: int)
    ensures x !in s ==> Toggled(s, x) == s + [x] && Toggled(s, x)[..|s|] == s
    ensures x in s ==>
      var i := FirstIndex(s, x);
      Toggled(s, x) == s[..i] + s[i + 1..] && |Toggled(s, x)| == |s| - 1
  {
    if x !in s {
      assert (s + [x])[..|s|] == s;
    }
  }

  /** Toggling `x` does not change whether any other id is a favourite. */
  lemma ToggleOthers(s: seq<int>, x: int, y: int)
    requires y != x
    ensures y in Toggled(s, x) <==> y in s
  {
    if x in s {
      var i := FirstIndex(s, x);
      assert s == s[..i] + [s[i]] + s[i + 1..];
      assert Toggled(s, x) == s[..i] + s[i + 1..];
    }
  }

  /** Toggling keeps a duplicate-free list duplicate-free, and flips the membership of `x`. */
  lemma ToggleNoDup(s: seq<int>, x: int)
    requires NoDup(s)
    ensures NoDup(Toggled(s, x))
    ensures x in Toggled(s, x) <==> x !in s
  {
    if x in s {
      RemoveAtNoDup(s, FirstIndex(s, x));
    } else {
      var t := s + [x];
      assert t[|s|] == x;
      forall a, b | 0 <= a < b < |t|
        ensures t[a] != t[b]
      {
        if b == |s| {
          assert t[a] == s[a];
        }
      }
    }
  }

  /** Toggling an absent id twice gives the original list back. */
  lemma ToggleTwiceAbsent(s: seq<int>, x: int)
    requires x !in s
    ensures Toggled(Toggled(s, x), x) == s
  {
    var t := s + [x];
    assert t[|s|] == x && t[..|s|] == s;
    assert Toggled(s, x) == t;
    assert RemoveFirst(t, x) == t[..|s|] + t[|s| + 1..];
  }

  /**
   * On a duplicate-free list, toggling a present id twice keeps the same ids but
   * moves that id to the end.
   */
  lemma ToggleTwicePresent(s: seq<int>, x: int)
    requires NoDup(s) && x in s
    ensures Toggled(Toggled(s, x), x) == RemoveFirst(s, x) + [x]
    ensures multiset(Toggled(Toggled(s, x), x)) == multiset(s)
  {
    var i := FirstIndex(s, x);
    var t := s[..i] + s[i + 1..];
    RemoveAtNoDup(s, i);
    assert Toggled(s, x) == t;
    assert Toggled(t, x) == t + [x];
    MultisetRemoveAt(s, i);
  }

  lemma MultisetRemoveAt(s: seq<int>, i: nat)
    requires i < |s|
    ensures multiset(s[..i] + s[i + 1..] + [s[i]]) == multiset(s)
  {
    assert s == s[..i] + [s[i]] + s[i + 1..];
  }

  /** [1, 2] toggled at 1 twice is [2, 1], so a double toggle does not always restore the list. */
  lemma ToggleTwiceReorders()
    ensures Toggled(Toggled([1, 2], 1), 1) == [2, 1]
  {
    assert FirstIndex([1, 2], 1) == 0;
    assert Toggled([1, 2], 1) == [2];
    assert 1 !in [2];
  }

  /** The favourites slice state. */
  class FavouritesState {
    var favouriteIds: seq<int>

    /** The initial state: no favourites. */
    constructor ()
      ensures favouriteIds == []
    {
      favouriteIds := [];
    }

    /** toggleFavourite: remove the first occurrence of `id`, or append it. */
    method ToggleFavourite(id: int)
      modifies this
      ensures favouriteIds == Toggled(old(favouriteIds), id)
    {
      var index := IndexOf(favouriteIds, id);
      if index > -1 {
        favouriteIds := favouriteIds[..index] + favouriteIds[index + 1..];
      } else {
        favouriteIds := favouriteIds + [id];
      }
    }

    /** setFavourites: the list becomes the payload. */
    method SetFavourites(ids: seq<int>)
      modifies this
      ensures favouriteIds == ids
    {
      favouriteIds := ids;
    }

    /** clearFavourites: the list becomes empty. */
    method ClearFavourites()
      modifies this
      ensures favouriteIds == []
    {
      favouriteIds := [];
    }
  }
}

=== FILE: home_screen.dfy ===
/**
 * The computations of the home screen: the greeting for the hour, the choice between
 * refreshing and searching, the search-and-section view of the loaded items, and
 * the favourites list the screen persists after a toggle.
 */
module HomeScreen {
  import opened Wrappers
  import opened Types
  import opened Text
  import opened Seqs
  import opened TransportService
  import opened FavouritesSlice

  /** getGreeting, with the hour of the day as input. */
  function Greeting(hour: int): (g: string)
    ensures g == "Good Morning" <==> hour < 12
    ensures g == "Good Afternoon" <==> 12 <= hour < 18
    ensures g == "Good Evening" <==> 18 <= hour
  {
    if hour < 12 then "Good Morning"
    else if hour < 18 then "Good Afternoon"
    else "Good Evening"
  }

  /** What handleSearch does with a submitted query. */
  datatype SearchAction = Refresh | Search(query: string)

  /** handleSearch: a query that trims to nothing reloads the list; any other is searched as typed. */
  function HandleSearch(query: string): (a: SearchAction)
    ensures a == Refresh <==> IsBlank(query)
    ensures a.Search? ==> a.query == query
  {
    TrimEmptyIffBlank(query);
    if Trim(query) == [] then Refresh else Search(query)
  }

  /**
   * The home screen's text test: title, description, location, from or to. It lies
   * between the service's two search tests (HomeQueryIgnoresRoute says how).
   */
  function MatchesHomeQuery(item: TransportItem, q: string): (b: bool)
    ensures MatchesTitleOrDescription(item, q) ==> b
    ensures b ==> MatchesAnyField(item, q)
  {
    MatchesTitleOrDescription(item, q) || FieldIncludes(item.location, q)
    || FieldIncludes(item.from, q) || FieldIncludes(item.to, q)
  }

  /** The home screen's test is the service's six-field test with the route left out. */
  lemma HomeQueryIgnoresRoute(item: TransportItem, q: string)
    ensures MatchesHomeQuery(item, q) <==> MatchesAnyField(item.(route := None), q)
  {
  }

  /** The search test for the lower-cased query `q`, as the filter callback. */
  function HomeMatch(q: string): TransportItem -> bool
  {
    item => MatchesHomeQuery(item, q)
  }

  /**
   * The search step of getFilteredSections: no filtering when the query trims to
   * nothing, otherwise the items matching the lower-cased (untrimmed) query, in
   * list order.
   */
  function FilterByQuery(items: seq<TransportItem>, searchQuery: string): (r: seq<TransportItem>)
    ensures IsBlank(searchQuery) ==> r == items
    ensures !IsBlank(searchQuery) ==>
      forall item :: item in r <==> item in items && MatchesHomeQuery(item, Lower(searchQuery))
    ensures |r| <= |items|
  {
    TrimEmptyIffBlank(searchQuery);
    if Trim(searchQuery) != [] then
      Filter(items, HomeMatch(Lower(searchQuery)))
    else
      items
  }

  predicate IsDestination(item: TransportItem)
  {
    item.kind == Destination
  }

  /** A bus, train, car or tuk-tuk. */
  predicate IsRoute(item: TransportItem)
  {
    item.kind in {Bus, Train, Car, TukTuk}
  }

  /** Every item is a destination or a route, and never both. */
  lemma DestinationOrRoute(item: TransportItem)
    ensures IsDestination(item) != IsRoute(item)
  {
  }

  /** Splitting a list into its destinations and its routes loses and adds nothing. */
  lemma {:induction false} PartitionDestinationsRoutes(s: seq<TransportItem>)
    ensures multiset(Filter(s, IsDestination)) + multiset(Filter(s, IsRoute)) == multiset(s)
  {
    if s != [] {
      PartitionDestinationsRoutes(s[1..]);
      assert s == [s[0]] + s[1..];
      FilterConcat([s[0]], s[1..], IsDestination);
      FilterConcat([s[0]], s[1..], IsRoute);
      DestinationOrRoute(s[0]);
    }
  }

  /**
   * A non-blank search keeps the items at exactly the positions that match, in
   * list order.
   */
  lemma SearchKeepsOrder(items: seq<TransportItem>, searchQuery: string)
    requires !IsBlank(searchQuery)
    ensures SelectsInOrder(FilterByQuery(items, searchQuery), items, HomeMatch(Lower(searchQuery)))
  {
    TrimEmptyIffBlank(searchQuery);
    FilterSelectsInOrder(items, HomeMatch(Lower(searchQuery)));
  }

  datatype ActiveFilter = AllItems | DestinationsOnly | RoutesOnly

  datatype Section = Section(title: string, data: seq<TransportItem>)

  /** The items a filter chip admits. */
  predicate Admits(f: ActiveFilter, item: TransportItem)
  {
    match f
    case AllItems => true
    case DestinationsOnly => IsDestination(item)
    case RoutesOnly => IsRoute(item)
  }

  /** The filtered items of one kind, under `title`, or no section when there are none. */
  function SectionOf(title: string, data: seq<TransportItem>): (r: seq<Section>)
    ensures |r| <= 1
    ensures r != [] <==> data != []
    ensures forall k :: 0 <= k < |r| ==> r[k].title == title && r[k].data == data
  {
    if |data| > 0 then [Section(title, data)] else []
  }

  /** The destinations among the items that pass the search, in list order. */
  function Destinations(items: seq<TransportItem>, searchQuery: string): (r: seq<TransportItem>)
    ensures forall j :: 0 <= j < |r| ==> IsDestination(r[j])
    ensures forall x :: x in r <==> x in FilterByQuery(items, searchQuery) && IsDestination(x)
  {
    Filter(FilterByQuery(items, searchQuery), IsDestination)
  }

  /** The routes among the items that pass the search, in list order. */
  function Routes(items: seq<TransportItem>, searchQuery: string): (r: seq<TransportItem>)
    ensures forall j :: 0 <= j < |r| ==> IsRoute(r[j])
    ensures forall x :: x in r <==> x in FilterByQuery(items, searchQuery) && IsRoute(x)
  {
    Filter(FilterByQuery(items, searchQuery), IsRoute)
  }

  /**
   * The destinations and the routes are the searched items at exactly the positions
   * of their kind, each in list order.
   */
  lemma KindsKeepOrder(items: seq<TransportItem>, searchQuery: string)
    ensures SelectsInOrder(Destinations(items, searchQuery), FilterByQuery(items, searchQuery), IsDestination)
    ensures SelectsInOrder(Routes(items, searchQuery), FilterByQuery(items, searchQuery), IsRoute)
  {
    FilterSelectsInOrder(FilterByQuery(items, searchQuery), IsDestination);
    FilterSelectsInOrder(FilterByQuery(items, searchQuery), IsRoute);
  }

  /**
   * The sections built from the destinations and the routes under chip `f`: at most
   * two and none empty; "Transport Routes" holds the routes and every other section
   * the destinations; each chip has its titles, and with the "all" chip destinations
   * come before routes.
   */
  function BuildSections(destinations: seq<TransportItem>, routes: seq<TransportItem>, f: ActiveFilter): (r: seq<Section>)
    ensures |r| <= 2
    ensures forall k :: 0 <= k < |r| ==> r[k].data != []
    ensures forall k :: 0 <= k < |r| ==> r[k].data == if r[k].title == "Transport Routes" then routes else destinations
    ensures f == DestinationsOnly ==> |r| <= 1 && forall k :: 0 <= k < |r| ==> r[k].title == "Destinations"
    ensures f == RoutesOnly ==> |r| <= 1 && forall k :: 0 <= k < |r| ==> r[k].title == "Transport Routes"
    ensures f == AllItems ==> forall k :: 0 <= k < |r| ==>
      r[k].title == if k == 0 && destinations != [] then "Popular Destinations" else "Transport Routes"
  {
    match f
    case DestinationsOnly => SectionOf("Destinations", destinations)
    case RoutesOnly => SectionOf("Transport Routes", routes)
    case AllItems => SectionOf("Popular Destinations", destinations) + SectionOf("Transport Routes", routes)
  }

  /**
   * getFilteredSections: the searched items split into destinations and routes,
   * then built into sections for the chip.
   */
  function FilteredSections(items: seq<TransportItem>, searchQuery: string, f: ActiveFilter): (r: seq<Section>)
    ensures |r| <= 2
    ensures forall k :: 0 <= k < |r| ==> r[k].data != []
    ensures forall k :: 0 <= k < |r| ==>
      r[k].data == if r[k].title == "Transport Routes" then Routes(items, searchQuery) else Destinations(items, searchQuery)
    ensures f == DestinationsOnly ==> |r| <= 1 && forall k :: 0 <= k < |r| ==> r[k].title == "Destinations"
    ensures f == RoutesOnly ==> |r| <= 1 && forall k :: 0 <= k < |r| ==> r[k].title == "Transport Routes"
    ensures f == AllItems ==> forall k :: 0 <= k < |r| ==>
      r[k].title == if k == 0 && Destinations(items, searchQuery) != [] then "Popular Destinations" else "Transport Routes"
  {
    BuildSections(Destinations(items, searchQuery), Routes(items, searchQuery), f)
  }

  /** Every item of a "Transport Routes" section is a route, and every item of another section a destination. */
  lemma SectionKinds(items: seq<TransportItem>, searchQuery: string, f: ActiveFilter)
    ensures var r := FilteredSections(items, searchQuery, f);
      forall k, j :: 0 <= k < |r| && 0 <= j < |r[k].data| ==>
        (IsRoute(r[k].data[j]) <==> r[k].title == "Transport Routes")
  {
    var r := FilteredSections(items, searchQuery, f);
    forall k, j | 0 <= k < |r| && 0 <= j < |r[k].data|
      ensures IsRoute(r[k].data[j]) <==> r[k].title == "Transport Routes"
    {
      DestinationOrRoute(r[k].data[j]);
    }
  }

  /**
   * An item is shown in some section exactly when it is loaded, passes the search
   * and is admitted by the filter chip.
   */
  lemma SectionsMembership(items: seq<TransportItem>, searchQuery: string, f: ActiveFilter, x: TransportItem)
    ensures (exists k :: 0 <= k < |FilteredSections(items, searchQuery, f)| && x in FilteredSections(items, searchQuery, f)[k].data)
      <==> x in items && (IsBlank(searchQuery) || MatchesHomeQuery(x, Lower(searchQuery))) && Admits(f, x)
  {
    var r := FilteredSections(items, searchQuery, f);
    var destinations := Destinations(items, searchQuery);
    var routes := Routes(items, searchQuery);
    DestinationOrRoute(x);
    if x in FilterByQuery(items, searchQuery) && Admits(f, x) {
      if IsDestination(x) {
        assert x in destinations;
        assert x in r[0].data;
      } else {
        assert x in routes;
        assert x in r[|r| - 1].data;
      }
    }
  }

  /** With the "all" chip the sections hold every item that passes the search, each once. */
  lemma AllSectionsCoverFiltered(items: seq<TransportItem>, searchQuery: string)
    ensures var r := FilteredSections(items, searchQuery, AllItems);
      multiset(if |r| == 0 then [] else if |r| == 1 then r[0].data else r[0].data + r[1].data)
      == multiset(FilterByQuery(items, searchQuery))
  {
    PartitionDestinationsRoutes(FilterByQuery(items, searchQuery));
  }

  /** The test of `favouriteIds.filter(id => id !== itemId)`. */
  function Other(id: int): int -> bool
  {
    y => y != id
  }

  /** Filtering out an id that occurs once, between two stretches without it, removes just that occurrence. */
  lemma {:induction false} FilterOutSingle(before: seq<int>, after: seq<int>, id: int)
    requires id !in before && id !in after
    ensures Filter(before + [id] + after, Other(id)) == before + after
  {
    var p := Other(id);
    FilterAll(before, p);
    FilterAll(after, p);
    assert Filter([id], p) == [] by {
      assert [id][1..] == [];
    }
    FilterConcat(before, [id], p);
    assert Filter(before + [id], p) == before;
    FilterConcat(before + [id], after, p);
  }

  /**
   * The list handleFavouritePress saves: every occurrence of the id removed when
   * present, the id appended when absent.
   */
  function PersistedFavourites(favouriteIds: seq<int>, id: int): (r: seq<int>)
    ensures id in r <==> id !in favouriteIds
    ensures forall y :: y != id ==> (y in r <==> y in favouriteIds)
    ensures id !in favouriteIds ==> r == favouriteIds + [id]
  {
    if id in favouriteIds then Filter(favouriteIds, Other(id)) else favouriteIds + [id]
  }

  /** Removing a present id keeps every other entry, duplicates included, in list order. */
  lemma PersistedKeepsOrder(favouriteIds: seq<int>, id: int)
    requires id in favouriteIds
    ensures SelectsInOrder(PersistedFavourites(favouriteIds, id), favouriteIds, Other(id))
  {
    FilterSelectsInOrder(favouriteIds, Other(id));
  }

  /** On a duplicate-free list the saved list is the reducer's toggle result. */
  lemma PersistedMatchesToggle(favouriteIds: seq<int>, id: int)
    requires NoDup(favouriteIds)
    ensures PersistedFavourites(favouriteIds, id) == Toggled(favouriteIds, id)
  {
    if id in favouriteIds {
      var i := FirstIndex(favouriteIds, id);
      var before, after := favouriteIds[..i], favouriteIds[i + 1..];
      assert favouriteIds == before + [id] + after;
      assert id !in after;
      FilterOutSingle(before, after, id);
    }
  }

  /** With a duplicated id the two lists differ: the save drops both copies, the toggle one. */
  lemma PersistedDivergesOnDuplicates()
    ensures PersistedFavourites([5, 5], 5) == []
    ensures Toggled([5, 5], 5) == [5]
  {
    assert [5, 5][1..] == [5];
    assert Filter([5], Other(5)) == [];
    assert FirstIndex([5, 5], 5) == 0;
  }
}

=== FILE: seqs.dfy ===
/** Array.prototype.filter and indexOf, and duplicate-freeness of a list. */
module Seqs {

  /** `s.filter(p)`: the elements satisfying `p`, in their original order. */
  function Filter<T>(s: seq<T>, p: T -> bool): (r: seq<T>)
    ensures |r| <= |s|
    ensures forall k :: 0 <= k < |r| ==> r[k] in s && p(r[k])
    ensures forall k :: 0 <= k < |s| && p(s[k]) ==> s[k] in r
  {
    if s == [] then [] else (if p(s[0]) then [s[0]] else []) + Filter(s[1..], p)
  }

  /** Filtering distributes over concatenation: the kept elements keep their relative order. */
  lemma {:induction false} FilterConcat<T>(a: seq<T>, b: seq<T>, p: T -> bool)
    ensures Filter(a + b, p) == Filter(a, p) + Filter(b, p)
  {
    if a != [] {
      assert (a + b)[1..] == a[1..] + b;
      FilterConcat(a[1..], b, p);
    } else {
      assert a + b == b;
    }
  }

  /** Filtering with a predicate every element satisfies changes nothing. */
  lemma {:induction false} FilterAll<T>(s: seq<T>, p: T -> bool)
    requires forall k :: 0 <= k < |s| ==> p(s[k])
    ensures Filter(s, p) == s
  {
    if s != [] {
      FilterAll(s[1..], p);
    }
  }

  /**
   * `r` is the elements of `s` at the positions `idx`, and those positions
   * strictly increase: `r` is a subsequence of `s`.
   */
  ghost predicate PickedAt<T>(r: seq<T>, s: seq<T>, idx: seq<int>)
  {
    |idx| == |r|
    && (forall k :: 0 <= k < |idx| ==> 0 <= idx[k] < |s| && r[k] == s[idx[k]])
    && (forall a, b :: 0 <= a < b < |idx| ==> idx[a] < idx[b])
  }

  /**
   * `r` holds, in their order in `s`, the elements of `s` at exactly the positions
   * whose element satisfies `p`: the meaning of `s.filter(p)` stated by positions.
   */
  ghost predicate SelectsInOrder<T>(r: seq<T>, s: seq<T>, p: T -> bool)
  {
    exists idx :: PickedAt(r, s, idx) && forall i :: 0 <= i < |s| ==> (p(s[i]) <==> i in idx)
  }

  /** Every position moved one place on. */
  function Shift(idx: seq<int>): (r: seq<int>)
    ensures |r| == |idx| && forall k :: 0 <= k < |idx| ==> r[k] == idx[k] + 1
  {
    seq(|idx|, k requires 0 <= k < |idx| => idx[k] + 1)
  }

  /** A subsequence of the tail of `s`, with or without the head in front, is a subsequence of `s`. */
  lemma PickedCons<T>(s: seq<T>, t: seq<T>, rest: seq<int>, keep: bool)
    requires s != [] && PickedAt(t, s[1..], rest)
    ensures PickedAt((if keep then [s[0]] else []) + t, s, (if keep then [0] else []) + Shift(rest))
  {
    var r := (if keep then [s[0]] else []) + t;
    var idx := (if keep then [0] else []) + Shift(rest);
    var h := if keep then 1 else 0;
    forall k | h <= k < |idx|
      ensures 0 <= idx[k] < |s| && r[k] == s[idx[k]]
    {
      assert r[k] == t[k - h] == s[1..][rest[k - h]];
    }
  }

  /** Positions of the tail satisfying `p`, moved on, plus 0 when the head does, are those of `s`. */
  lemma PositionsCons<T>(s: seq<T>, p: T -> bool, rest: seq<int>)
    requires s != [] && forall k :: 0 <= k < |rest| ==> 0 <= rest[k]
    requires forall i :: 0 <= i < |s| - 1 ==> (p(s[1..][i]) <==> i in rest)
    ensures forall i :: 0 <= i < |s| ==> (p(s[i]) <==> i in (if p(s[0]) then [0] else []) + Shift(rest))
  {
    var idx := (if p(s[0]) then [0] else []) + Shift(rest);
    var h := if p(s[0]) then 1 else 0;
    assert 0 in idx <==> p(s[0]);
    forall i | 0 < i < |s|
      ensures p(s[i]) <==> i in idx
    {
      assert s[i] == s[1..][i - 1];
      if i - 1 in rest {
        var m :| 0 <= m < |rest| && rest[m] == i - 1;
        assert idx[h + m] == i;
      }
      if i in idx {
        var k :| 0 <= k < |idx| && idx[k] == i;
        assert Shift(rest)[k - h] == i;
      }
    }
  }

  /** The positions of `s` that `s.filter(p)` keeps, in increasing order. */
  function KeptPositions<T>(s: seq<T>, p: T -> bool): (idx: seq<int>)
    ensures PickedAt(Filter(s, p), s, idx)
    ensures forall i :: 0 <= i < |s| ==> (p(s[i]) <==> i in idx)
  {
    if s == [] then []
    else
      var rest := KeptPositions(s[1..], p);
      PickedCons(s, Filter(s[1..], p), rest, p(s[0]));
      PositionsCons(s, p, rest);
      (if p(s[0]) then [0] else []) + Shift(rest)
  }

  /** `s.filter(p)` keeps exactly the elements satisfying `p`, in their original order. */
  lemma FilterSelectsInOrder<T>(s: seq<T>, p: T -> bool)
    ensures SelectsInOrder(Filter(s, p), s, p)
  {
    var idx := KeptPositions(s, p);
  }

  /** No value occurs twice. */
  predicate NoDup<T(==)>(s: seq<T>)
  {
    forall i, j :: 0 <= i < j < |s| ==> s[i] != s[j]
  }

  /** `s.indexOf(x)`: the first position holding `x`, or -1 when there is none. */
  method IndexOf<T(==)>(s: seq<T>, x: T) returns (i: int)
    ensures -1 <= i < |s|
    ensures i == -1 <==> x !in s
    ensures 0 <= i ==> s[i] == x && x !in s[..i]
  {
    i := 0;
    while i < |s|
      invariant 0 <= i <= |s|
      invariant x !in s[..i]
    {
      if s[i] == x {
        return;
      }
      i := i + 1;
    }
    assert s[..i] == s;
    i := -1;
  }
}

=== FILE: storage.dfy ===
/**
 * The persistent key-value store behind storageService. Each of the five keys holds
 * one kind of value; a read of an absent key gives that key's default. Values are
 * kept typed: serialising and parsing them is taken as the identity.
 */
module Storage {
  import opened Wrappers
  import opened Types

  const AuthTokenKey := "@gomate_auth_token"
  const UserDataKey := "@gomate_user_data"
  const FavouritesKey := "@gomate_favourites"
  const ThemeKey := "@gomate_theme"
  const RegisteredUsersKey := "@gomate_registered_users"

  /** The five keys are pairwise distinct, so writing one never overwrites another. */
  lemma KeysDistinct()
    ensures |{AuthTokenKey, UserDataKey, FavouritesKey, ThemeKey, RegisteredUsersKey}| == 5
  {
  }

  /** One entry of the registered-users table. */
  datatype Registered = Registered(password: string, userData: User)

  /** What a key holds. */
  datatype Value =
    | Text(text: string)
    | UserRecord(user: User)
    | IdList(ids: seq<int>)
    | Flag(on: bool)
    | UserTable(users: map<string, Registered>)

  class StorageService {
    var kv: map<string, Value>

    /** Every key holds the kind of value its operations write. */
    ghost predicate Valid()
      reads this
    {
      && (AuthTokenKey in kv ==> kv[AuthTokenKey].Text?)
      && (UserDataKey in kv ==> kv[UserDataKey].UserRecord?)
      && (FavouritesKey in kv ==> kv[FavouritesKey].IdList?)
      && (ThemeKey in kv ==> kv[ThemeKey].Flag?)
      && (RegisteredUsersKey in kv ==> kv[RegisteredUsersKey].UserTable?)
    }

    /** An empty store. */
    constructor ()
      ensures Valid() && kv == map[]
    {
      kv := map[];
    }

    /** getAuthToken: the saved token, or null. */
    function GetAuthToken(): (r: Option<string>)
      reads this
      requires Valid()
      ensures r.None? <==> AuthTokenKey !in kv
    {
      if AuthTokenKey in kv then Some(kv[AuthTokenKey].text) else None
    }

    /** getUserData: the saved user, or null. */
    function GetUserData(): (r: Option<User>)
      reads this
      requires Valid()
      ensures r.None? <==> UserDataKey !in kv
    {
      if UserDataKey in kv then Some(kv[UserDataKey].user) else None
    }

    /** getFavourites: the saved ids, or the empty list. */
    function GetFavourites(): (r: seq<int>)
      reads this
      requires Valid()
      ensures FavouritesKey !in kv ==> r == []
    {
      if FavouritesKey in kv then kv[FavouritesKey].ids else []
    }

    /** getTheme: the saved dark-mode flag, or false. */
    function GetTheme(): (r: bool)
      reads this
      requires Valid()
      ensures ThemeKey !in kv ==> !r
    {
      if ThemeKey in kv then kv[ThemeKey].on else false
    }

    /** The registered-users table as saveRegisteredUser reads it: empty when never written. */
    function Table(): (t: map<string, Registered>)
      reads this
      requires Valid()
      ensures RegisteredUsersKey !in kv ==> t == map[]
    {
      if RegisteredUsersKey in kv then kv[RegisteredUsersKey].users else map[]
    }

    /**
     * getRegisteredUser: the stored user exactly when the table has an entry for
     * `username` whose password is `password`; null otherwise, also when there is no table.
     */
    function GetRegisteredUser(username: string, password: string): (r: Option<User>)
      reads this
      requires Valid()
      ensures r.Some? <==> username in Table() && Table()[username].password == password
      ensures r.Some? ==> r.value == Table()[username].userData
    {
      if RegisteredUsersKey !in kv then None
      else
        var users := kv[RegisteredUsersKey].users;
        if username in users && users[username].password == password then Some(users[username].userData)
        else None
    }

    /** saveAuthToken: only the token key changes. */
    method SaveAuthToken(token: string)
      requires Valid()
      modifies this
      ensures Valid() && kv == old(kv)[AuthTokenKey := Text(token)]
      ensures GetAuthToken() == Some(token)
    {
      kv := kv[AuthTokenKey := Text(token)];
    }

    /** removeAuthToken: only the token key changes. */
    method RemoveAuthToken()
      requires Valid()
      modifies this
      ensures Valid() && kv == old(kv) - {AuthTokenKey}
      ensures GetAuthToken() == None
    {
      kv := kv - {AuthTokenKey};
    }

    /** saveUserData: only the user key changes. */
    method SaveUserData(user: User)
      requires Valid()
      modifies this
      ensures Valid() && kv == old(kv)[UserDataKey := UserRecord(user)]
      ensures GetUserData() == Some(user)
    {
      kv := kv[UserDataKey := UserRecord(user)];
    }

    /** removeUserData: only the user key changes. */
    method RemoveUserData()
      requires Valid()
      modifies this
      ensures Valid() && kv == old(kv) - {UserDataKey}
      ensures GetUserData() == None
    {
      kv := kv - {UserDataKey};
    }

    /** saveFavourites: only the favourites key changes; the ids read back in the same order. */
    method SaveFavourites(ids: seq<int>)
      requires Valid()
      modifies this
      ensures Valid() && kv == old(kv)[FavouritesKey := IdList(ids)]
      ensures GetFavourites() == ids
    {
      kv := kv[FavouritesKey := IdList(ids)];
    }

    /** saveTheme: only the theme key changes. */
    method SaveTheme(isDarkMode: bool)
      requires Valid()
      modifies this
      ensures Valid() && kv == old(kv)[ThemeKey := Flag(isDarkMode)]
      ensures GetTheme() == isDarkMode
    {
      kv := kv[ThemeKey := Flag(isDarkMode)];
    }

    /** clearAll: token, user and favourites go; the theme and the registered users stay. */
    method ClearAll()
      requires Valid()
      modifies this
      ensures Valid() && kv == old(kv) - {AuthTokenKey, UserDataKey, FavouritesKey}
      ensures GetAuthToken() == None && GetUserData() == None && GetFavourites() == []
      ensures GetTheme() == old(GetTheme()) && Table() == old(Table())
    {
      kv := kv - {AuthTokenKey, UserDataKey, FavouritesKey};
    }

    /**
     * saveRegisteredUser: read the table (empty when absent), set the entry for
     * `username`, write the table back. Every other username keeps its entry.
     */
    method SaveRegisteredUser(username: string, password: string, user: User)
      requires Valid()
      modifies this
      ensures Valid()
      ensures Table() == old(Table())[username := Registered(password, user)]
      ensures kv == old(kv)[RegisteredUsersKey := UserTable(Table())]
      ensures GetRegisteredUser(username, password) == Some(user)
      ensures forall n, p :: n != username ==> GetRegisteredUser(n, p) == old(GetRegisteredUser(n, p))
    {
      var users := if RegisteredUsersKey in kv then kv[RegisteredUsersKey].users else map[];
      users := users[username := Registered(password, user)];
      kv := kv[RegisteredUsersKey := UserTable(users)];
    }
  }
}

=== FILE: text.dfy ===
/** The string operations the app relies on: toLowerCase, includes and trim. */
module Text {

  /** ASCII case folding: the part of String.prototype.toLowerCase this model keeps. */
  function LowerChar(c: char): char
  {
    if 'A' <= c <= 'Z' then (c as int + 32) as char else c
  }

  /** `s.toLowerCase()`, character by character. */
  function Lower(s: string): (r: string)
    ensures |r| == |s|
    ensures forall i :: 0 <= i < |s| ==> r[i] == LowerChar(s[i])
  {
    if s == [] then [] else [LowerChar(s[0])] + Lower(s[1..])
  }

  /** `needle` occurs in `hay` starting at position `i`. */
  predicate OccursAt(hay: string, needle: string, i: int)
  {
    0 <= i && i + |needle| <= |hay| && hay[i..i + |needle|] == needle
  }

  /** `hay.includes(needle)`: some position of `hay` starts an occurrence of `needle`. */
  function Includes(hay: string, needle: string): (r: bool)
    ensures r <==> exists i :: OccursAt(hay, needle, i)
    decreases |hay|
  {
    if |hay| < |needle| then
      assert forall i :: !OccursAt(hay, needle, i);
      false
    else if hay[..|needle|] == needle then
      assert OccursAt(hay, needle, 0);
      true
    else
      OccursShift(hay, needle);
      Includes(hay[1..], needle)
  }

  /** An occurrence in the tail of `hay` is an occurrence in `hay`, one position further on. */
  lemma OccursShift(hay: string, needle: string)
    requires |needle| <= |hay| && hay[..|needle|] != needle
    ensures (exists i :: OccursAt(hay, needle, i)) <==> (exists j :: OccursAt(hay[1..], needle, j))
  {
    if exists i :: OccursAt(hay, needle, i) {
      var i :| OccursAt(hay, needle, i);
      assert i != 0;
      assert hay[1..][i - 1..i - 1 + |needle|] == hay[i..i + |needle|];
      assert OccursAt(hay[1..], needle, i - 1);
    }
    if exists j :: OccursAt(hay[1..], needle, j) {
      var j :| OccursAt(hay[1..], needle, j);
      assert hay[1..][j..j + |needle|] == hay[j + 1..j + 1 + |needle|];
      assert OccursAt(hay, needle, j + 1);
    }
  }

  /** The characters String.prototype.trim removes: white space and line terminators. */
  predicate IsWhitespace(c: char)
  {
    var n := c as int;
    n == 0x09 || n == 0x0A || n == 0x0B || n == 0x0C || n == 0x0D || n == 0x20
    || n == 0xA0 || n == 0x1680 || (0x2000 <= n <= 0x200A) || n == 0x2028 || n == 0x2029
    || n == 0x202F || n == 0x205F || n == 0x3000 || n == 0xFEFF
  }

  /** Every character of `s` is white space; `s.trim() === ''` (see TrimEmptyIffBlank). */
  predicate IsBlank(s: string)
  {
    forall i :: 0 <= i < |s| ==> IsWhitespace(s[i])
  }

  function TrimStart(s: string): (r: string)
    ensures |r| <= |s|
    ensures r == [] <==> IsBlank(s)
    ensures r != [] ==> !IsWhitespace(r[0])
  {
    if s != [] && IsWhitespace(s[0]) then TrimStart(s[1..]) else s
  }

  function TrimEnd(s: string): (r: string)
    ensures |r| <= |s|
    ensures r == [] ==> IsBlank(s)
    ensures r != [] ==> r[0] == s[0] && !IsWhitespace(r[|r| - 1])
  {
    if s != [] && IsWhitespace(s[|s| - 1]) then TrimEnd(s[..|s| - 1]) else s
  }

  /** TrimStart keeps a suffix of `s` and drops a blank prefix. */
  lemma {:induction false} TrimStartDrops(s: string)
    ensures TrimStart(s) == s[|s| - |TrimStart(s)|..]
    ensures IsBlank(s[..|s| - |TrimStart(s)|])
  {
    if s != [] && IsWhitespace(s[0]) {
      var t := TrimStart(s[1..]);
      TrimStartDrops(s[1..]);
      assert s[1..][..|s| - 1 - |t|] == s[1..|s| - |t|];
      assert s[1..][|s| - 1 - |t|..] == s[|s| - |t|..];
    }
  }

  /** TrimEnd keeps a prefix of `s` and drops a blank suffix. */
  lemma {:induction false} TrimEndDrops(s: string)
    ensures TrimEnd(s) == s[..|TrimEnd(s)|]
    ensures IsBlank(s[|TrimEnd(s)|..])
  {
    if s != [] && IsWhitespace(s[|s| - 1]) {
      var t := TrimEnd(s[..|s| - 1]);
      TrimEndDrops(s[..|s| - 1]);
      assert s[..|s| - 1][|t|..] == s[|t|..|s| - 1];
      assert s[..|s| - 1][..|t|] == s[..|t|];
    }
  }

  /** `r` is `s` from position `i` on, with a blank stretch before it and after it. */
  ghost predicate BlankAround(s: string, r: string, i: int)
  {
    0 <= i <= |s| - |r| && r == s[i..i + |r|] && IsBlank(s[..i]) && IsBlank(s[i + |r|..])
  }

  /**
   * `s.trim()`: the part of `s` left when the white space at both ends is removed.
   * The parts removed are blank, and a non-empty result starts and ends with a
   * character that is not white space, so no more could have been removed.
   */
  function Trim(s: string): (r: string)
    ensures exists i :: BlankAround(s, r, i)
    ensures r != [] ==> !IsWhitespace(r[0]) && !IsWhitespace(r[|r| - 1])
  {
    var t := TrimStart(s);
    var r := TrimEnd(t);
    TrimStartDrops(s);
    TrimEndDrops(t);
    var i := |s| - |t|;
    assert t[|r|..] == s[i + |r|..];
    assert BlankAround(s, r, i);
    r
  }

  /** A string trims to the empty string exactly when it is all white space. */
  lemma TrimEmptyIffBlank(s: string)
    ensures Trim(s) == [] <==> IsBlank(s)
    ensures Trim(s) != [] ==> !IsWhitespace(Trim(s)[0]) && !IsWhitespace(Trim(s)[|Trim(s)| - 1])
  {
    var t := TrimStart(s);
    if t != [] {
      assert !IsWhitespace(t[0]);
      assert !IsBlank(t);
    }
  }

  predicate IsDigit(c: char)
  {
    '0' <= c <= '9'
  }

  /** `String(n)` for a non-negative integer: its decimal digits, without leading zeros. */
  function NatToString(n: nat): (s: string)
    ensures |s| >= 1 && forall i :: 0 <= i < |s| ==> IsDigit(s[i])
    ensures s[0] == '0' ==> n == 0
    decreases n
  {
    if n < 10 then [('0' as int + n) as char]
    else NatToString(n / 10) + [('0' as int + n % 10) as char]
  }

  /** The number a string of decimal digits denotes. */
  function DecimalValue(s: string): nat
    requires forall i :: 0 <= i < |s| ==> IsDigit(s[i])
  {
    if s == [] then 0
    else
      assert IsDigit(s[|s| - 1]);
      DecimalValue(s[..|s| - 1]) * 10 + (s[|s| - 1] as int - '0' as int)
  }

  /** Reading the digits back gives the number, so distinct numbers give distinct strings. */
  lemma {:induction false} NatToStringRoundTrip(n: nat)
    ensures DecimalValue(NatToString(n)) == n
  {
    if n >= 10 {
      NatToStringRoundTrip(n / 10);
      var s := NatToString(n);
      assert s[..|s| - 1] == NatToString(n / 10);
    }
  }
}

=== FILE: transport_service.dfy ===
/**
 * Reconciliation of remote product records with the local catalog: every remote
 * record at position i is shown as catalog entry i mod 20, keeping the remote id.
 * Each HTTP call is an input value, so the operations are pure functions. They are
 * stated over any catalog whose entry at position i has id i + 1; the app passes
 * Catalog.Items, which has that shape (Catalog.ItemsIdsArePositions).
 */
module TransportService {
  import opened Wrappers
  import opened Types
  import opened Text
  import opened Seqs
  import opened Catalog

  /** Items kept from a listing, a search and a cart. */
  const ListLimit := 20
  const SearchLimit := 10
  const CartLimit := 3

  /** One element of a remote `products` array: `null`, or an object whose `id` may be absent. */
  datatype Product = Null | Record(id: Option<int>)

  /** The `data` of a listing or search answer; `products` is None when absent or falsy. */
  datatype Page = Page(products: Option<seq<Product>>)

  /** One element of a remote `carts` array; `products` is None when absent. */
  datatype Cart = NullCart | Cart(id: nat, products: Option<seq<Product>>)

  /** The `data` of a carts answer. */
  datatype CartPage = CartPage(carts: Option<seq<Cart>>)

  /**
   * The outcome of one HTTP call: it threw (network failure, non-2xx status, timeout),
   * or it answered with `data`.
   */
  datatype Response<+T> = Threw | Answered(data: T)

  function Min(a: int, b: int): int
  {
    if a <= b then a else b
  }

  /** `s.slice(0, n)`. */
  function Take<T>(s: seq<T>, n: nat): (r: seq<T>)
    ensures |r| == Min(|s|, n)
    ensures forall k :: 0 <= k < |r| ==> r[k] == s[k]
  {
    s[..Min(|s|, n)]
  }

  /** `product.id || fallback`: a numeric id is truthy unless it is absent or 0. */
  predicate IsTruthy(id: Option<int>)
  {
    id.Some? && id.value != 0
  }

  /** No element is `null`, so reading `.id` from each one does not throw. */
  predicate AllRecords(ps: seq<Product>)
  {
    forall k :: 0 <= k < |ps| ==> ps[k].Record?
  }

  /**
   * transformProductToTransport: the catalog entry at `index mod 20`, with the
   * remote id when that id is truthy and the entry's own id (index mod 20 + 1) otherwise.
   */
  function TransformProduct(catalog: seq<TransportItem>, p: Product, index: nat): (r: TransportItem)
    requires IdsArePositions(catalog) && p.Record?
    ensures r.(id := catalog[index % Size].id) == catalog[index % Size]
    ensures r.id == if IsTruthy(p.id) then p.id.value else index % Size + 1
  {
    var template := catalog[index % Size];
    template.(id := if IsTruthy(p.id) then p.id.value else template.id)
  }

  /** `ps.map(transformProductToTransport)`, with positions counted from `start`. */
  function MapProducts(catalog: seq<TransportItem>, ps: seq<Product>, start: nat): (r: seq<TransportItem>)
    requires IdsArePositions(catalog) && AllRecords(ps)
    ensures |r| == |ps|
    ensures forall k :: 0 <= k < |ps| ==> r[k] == TransformProduct(catalog, ps[k], start + k)
  {
    if ps == [] then [] else [TransformProduct(catalog, ps[0], start)] + MapProducts(catalog, ps[1..], start + 1)
  }

  /**
   * fetchTransportItems. A present `products` array, even an empty one, is mapped;
   * a missing one, or a call that threw, gives the catalog unchanged.
   */
  function FetchTransportItems(catalog: seq<TransportItem>, resp: Response<Option<Page>>): (r: seq<TransportItem>)
    requires IdsArePositions(catalog)
    ensures resp.Threw? ==> r == catalog
    ensures resp.Answered? && (resp.data.None? || resp.data.value.products.None?) ==> r == catalog
    ensures resp.Answered? && resp.data.Some? && resp.data.value.products.Some? ==>
      var ps := resp.data.value.products.value;
      if AllRecords(Take(ps, ListLimit)) then
        |r| == Min(|ps|, ListLimit) && forall k :: 0 <= k < |r| ==> ps[k].Record? && r[k] == TransformProduct(catalog, ps[k], k)
      else
        r == catalog
  {
    match resp
    case Threw => catalog
    case Answered(data) =>
      if data.Some? && data.value.products.Some? then
        var top := Take(data.value.products.value, ListLimit);
        // a null record makes the mapping throw, and the catch returns the catalog
        if AllRecords(top) then MapProducts(catalog, top, 0) else catalog
      else
        catalog
  }

  /** A present optional field whose lower-cased text includes `q`. */
  predicate FieldIncludes(field: Option<string>, q: string)
  {
    field.Some? && Includes(Lower(field.value), q)
  }

  /**
   * The test of the catch path of searchTransport: `q` occurs in the lower-cased
   * title or the lower-cased description. The empty query matches every item, and
   * a query longer than both fields matches none.
   */
  function MatchesTitleOrDescription(item: TransportItem, q: string): (b: bool)
    ensures q == [] ==> b
    ensures b ==> |q| <= |item.title| || |q| <= |item.description|
  {
    assert q == [] ==> OccursAt(Lower(item.title), q, 0);
    Includes(Lower(item.title), q) || Includes(Lower(item.description), q)
  }

  /**
   * The test used when the remote search finds nothing: any of six fields. It
   * accepts every item the catch-path test accepts, and on an item without
   * location, route, from and to the two tests agree.
   */
  function MatchesAnyField(item: TransportItem, q: string): (b: bool)
    ensures MatchesTitleOrDescription(item, q) ==> b
    ensures item.location.None? && item.route.None? && item.from.None? && item.to.None? ==>
      (b <==> MatchesTitleOrDescription(item, q))
  {
    MatchesTitleOrDescription(item, q) || FieldIncludes(item.location, q) || FieldIncludes(item.route, q)
    || FieldIncludes(item.from, q) || FieldIncludes(item.to, q)
  }

  /** Ids strictly increase along the list. */
  predicate IdsIncreasing(s: seq<TransportItem>)
  {
    forall a, b :: 0 <= a < b < |s| ==> s[a].id < s[b].id
  }

  /** A lower bound on the ids of a list bounds the ids of every selection from it. */
  lemma FilterIdsAbove(s: seq<TransportItem>, p: TransportItem -> bool, bound: int)
    requires forall k :: 0 <= k < |s| ==> bound < s[k].id
    ensures forall k :: 0 <= k < |Filter(s, p)| ==> bound < Filter(s, p)[k].id
  {
    var r := Filter(s, p);
    forall k | 0 <= k < |r|
      ensures bound < r[k].id
    {
      assert r[k] in s;
    }
  }

  /** An item below every id of an increasing list can be put in front of it. */
  lemma ConsIdsIncreasing(x: TransportItem, rest: seq<TransportItem>)
    requires IdsIncreasing(rest)
    requires forall k :: 0 <= k < |rest| ==> x.id < rest[k].id
    ensures IdsIncreasing([x] + rest)
  {
    var r := [x] + rest;
    forall a, b | 0 <= a < b < |r|
      ensures r[a].id < r[b].id
    {
      assert r[b] == rest[b - 1];
      if a > 0 {
        assert r[a] == rest[a - 1];
      }
    }
  }

  lemma {:induction false} FilterKeepsIdsIncreasing(s: seq<TransportItem>, p: TransportItem -> bool)
    requires IdsIncreasing(s)
    ensures IdsIncreasing(Filter(s, p))
  {
    if s != [] {
      var rest := Filter(s[1..], p);
      FilterKeepsIdsIncreasing(s[1..], p);
      if p(s[0]) {
        FilterIdsAbove(s[1..], p, s[0].id);
        ConsIdsIncreasing(s[0], rest);
      } else {
        assert Filter(s, p) == rest;
      }
    }
  }

  /**
   * The catalog entries satisfying `m`, in catalog order: exactly the entries that
   * satisfy it, with ids increasing as in the catalog.
   */
  function SelectFromCatalog(catalog: seq<TransportItem>, m: TransportItem -> bool): (r: seq<TransportItem>)
    requires IdsArePositions(catalog)
    ensures IdsIncreasing(r)
    ensures forall item :: item in r <==> item in catalog && m(item)
  {
    assert IdsIncreasing(catalog);
    FilterKeepsIdsIncreasing(catalog, m);
    Filter(catalog, m)
  }

  /**
   * searchTransport. Remote records, when there are any, are mapped by position
   * (at most 10); no remote records select catalog entries by six fields; a call
   * that threw selects them by title and description only.
   */
  function SearchTransport(catalog: seq<TransportItem>, query: string, resp: Response<Option<Page>>): (r: seq<TransportItem>)
    requires IdsArePositions(catalog)
    ensures resp.Threw? ==>
      IdsIncreasing(r) && forall item :: item in r <==> item in catalog && MatchesTitleOrDescription(item, Lower(query))
    ensures resp.Answered? && (resp.data.None? || resp.data.value.products.None? || resp.data.value.products.value == []) ==>
      IdsIncreasing(r) && forall item :: item in r <==> item in catalog && MatchesAnyField(item, Lower(query))
    ensures resp.Answered? && resp.data.Some? && resp.data.value.products.Some? && resp.data.value.products.value != [] ==>
      var ps := resp.data.value.products.value;
      if AllRecords(Take(ps, SearchLimit)) then
        |r| == Min(|ps|, SearchLimit) && forall k :: 0 <= k < |r| ==> ps[k].Record? && r[k] == TransformProduct(catalog, ps[k], k)
      else
        IdsIncreasing(r) && forall item :: item in r <==> item in catalog && MatchesTitleOrDescription(item, Lower(query))
  {
    var q := Lower(query);
    match resp
    case Threw => SelectFromCatalog(catalog, item => MatchesTitleOrDescription(item, q))
    case Answered(data) =>
      if data.Some? && data.value.products.Some? && |data.value.products.value| > 0 then
        var top := Take(data.value.products.value, SearchLimit);
        // a null record makes the mapping throw, and the catch searches title and description
        if AllRecords(top) then MapProducts(catalog, top, 0) else SelectFromCatalog(catalog, item => MatchesTitleOrDescription(item, q))
      else
        SelectFromCatalog(catalog, item => MatchesAnyField(item, q))
  }

  /** `s.find(item => item.id === id) || null`: the first entry with that id. */
  function FindById(s: seq<TransportItem>, id: int): (r: Option<TransportItem>)
    ensures r.None? <==> forall k :: 0 <= k < |s| ==> s[k].id != id
    ensures r.Some? ==> exists k :: (0 <= k < |s| && s[k] == r.value && r.value.id == id
                                      && forall j :: 0 <= j < k ==> s[j].id != id)
  {
    if s == [] then None
    else if s[0].id == id then Some(s[0])
    else
      var r := FindById(s[1..], id);
      assert r.Some? ==> exists k :: (1 <= k < |s| && s[k] == r.value && r.value.id == id
                                       && forall j :: 1 <= j < k ==> s[j].id != id);
      r
  }

  /** In the catalog, id n sits at position n - 1, so the lookup finds it exactly when 1 <= n <= 20. */
  lemma {:induction false} FindInCatalog(catalog: seq<TransportItem>, id: int)
    requires IdsArePositions(catalog)
    ensures FindById(catalog, id) == if 1 <= id <= Size then Some(catalog[id - 1]) else None
  {
    var r := FindById(catalog, id);
    if 1 <= id <= Size {
      assert catalog[id - 1].id == id;
      var k :| 0 <= k < |catalog| && catalog[k] == r.value && r.value.id == id
        && forall j :: 0 <= j < k ==> catalog[j].id != id;
    } else {
      assert forall k :: 0 <= k < |catalog| ==> catalog[k].id != id;
    }
  }

  /**
   * fetchTransportById: an answered, non-null record is the entry at `id mod 20`
   * carrying the record's id; otherwise the catalog entry with that id, or null.
   */
  function FetchTransportById(catalog: seq<TransportItem>, id: nat, resp: Response<Product>): (r: Option<TransportItem>)
    requires IdsArePositions(catalog)
    ensures resp.Answered? && resp.data.Record? ==>
      r.Some? && r.value.(id := catalog[id % Size].id) == catalog[id % Size]
      && r.value.id == if IsTruthy(resp.data.id) then resp.data.id.value else id % Size + 1
    ensures resp.Threw? || resp.data.Null? ==>
      r == if 1 <= id <= Size then Some(catalog[id - 1]) else None
  {
    FindInCatalog(catalog, id);
    match resp
    case Answered(Record(_)) => Some(TransformProduct(catalog, resp.data, id))
    case _ => FindById(catalog, id)
  }

  /** A cart whose `products` can be sliced. */
  predicate IsUsableCart(c: Cart)
  {
    c.Cart? && c.products.Some?
  }

  /** The number of items a cart contributes: one per product, at most three. */
  function CartSize(c: Cart): nat
    requires IsUsableCart(c)
  {
    Min(|c.products.value|, CartLimit)
  }

  /** The number of items the first `j` carts contribute: where the items of cart j start. */
  function ItemsBefore(cs: seq<Cart>, j: nat): nat
    requires j <= |cs| && forall i :: 0 <= i < |cs| ==> IsUsableCart(cs[i])
  {
    if j == 0 then 0 else CartSize(cs[0]) + ItemsBefore(cs[1..], j - 1)
  }

  /**
   * transformCartToTransport: for the first three products of the cart, the catalog
   * entry at (cart id + k) mod 20 with id cart id * 100 + k.
   */
  function TransformCart(catalog: seq<TransportItem>, c: Cart): (r: seq<TransportItem>)
    requires IdsArePositions(catalog) && IsUsableCart(c)
    ensures |r| == CartSize(c)
    ensures forall k :: 0 <= k < |r| ==>
      r[k].id == c.id * 100 + k
      && r[k].(id := catalog[(c.id + k) % Size].id) == catalog[(c.id + k) % Size]
  {
    var n := CartSize(c);
    seq(n, k requires 0 <= k < n => catalog[(c.id + k) % Size].(id := c.id * 100 + k))
  }

  /** Cart j's items end where cart j + 1's begin. */
  lemma {:induction false} ItemsBeforeStep(cs: seq<Cart>, j: nat)
    requires j < |cs| && forall i :: 0 <= i < |cs| ==> IsUsableCart(cs[i])
    ensures ItemsBefore(cs, j + 1) == ItemsBefore(cs, j) + CartSize(cs[j])
  {
    if j > 0 {
      ItemsBeforeStep(cs[1..], j - 1);
      assert cs[1..][j - 1] == cs[j];
    }
  }

  /** A slice of the second part of a concatenation, counted from the start of the whole. */
  lemma SliceAfter<T>(head: seq<T>, tail: seq<T>, a: nat, n: nat)
    requires a + n <= |tail|
    ensures (head + tail)[|head| + a..|head| + a + n] == tail[a..a + n]
  {
  }

  /** `carts.flatMap(transformCartToTransport)`: the items of every cart, cart after cart. */
  function FlattenCarts(catalog: seq<TransportItem>, cs: seq<Cart>): (r: seq<TransportItem>)
    requires IdsArePositions(catalog)
    requires forall j :: 0 <= j < |cs| ==> IsUsableCart(cs[j])
    ensures |r| == ItemsBefore(cs, |cs|)
  {
    if cs == [] then [] else TransformCart(catalog, cs[0]) + FlattenCarts(catalog, cs[1..])
  }

  /**
   * The items of cart j are its TransformCart items, in order, from position
   * ItemsBefore(cs, j) on: item k of cart j is the catalog entry at
   * (cart id + k) mod 20 with id cart id * 100 + k.
   */
  lemma {:induction false} FlattenCartsLayout(catalog: seq<TransportItem>, cs: seq<Cart>)
    requires IdsArePositions(catalog)
    requires forall j :: 0 <= j < |cs| ==> IsUsableCart(cs[j])
    ensures forall j :: 0 <= j < |cs| ==>
      ItemsBefore(cs, j) + CartSize(cs[j]) <= |FlattenCarts(catalog, cs)|
      && FlattenCarts(catalog, cs)[ItemsBefore(cs, j)..ItemsBefore(cs, j) + CartSize(cs[j])] == TransformCart(catalog, cs[j])
  {
    if cs != [] {
      var head := TransformCart(catalog, cs[0]);
      var tail := FlattenCarts(catalog, cs[1..]);
      FlattenCartsLayout(catalog, cs[1..]);
      assert FlattenCarts(catalog, cs) == head + tail;
      forall j | 1 <= j < |cs|
        ensures ItemsBefore(cs, j) + CartSize(cs[j]) <= |head + tail|
        ensures (head + tail)[ItemsBefore(cs, j)..ItemsBefore(cs, j) + CartSize(cs[j])] == TransformCart(catalog, cs[j])
      {
        assert cs[1..][j - 1] == cs[j];
        var a := ItemsBefore(cs[1..], j - 1);
        assert ItemsBefore(cs, j) == |head| + a;
        assert tail[a..a + CartSize(cs[j])] == TransformCart(catalog, cs[j]);
        SliceAfter(head, tail, a, CartSize(cs[j]));
      }
      assert ItemsBefore(cs, 0) == 0 && CartSize(cs[0]) == |head|;
      assert (head + tail)[..|head|] == head;
    }
  }

  /**
   * fetchAlternativeTransport: the items of every cart; nothing when the call threw,
   * when `carts` is missing, or when a cart is null or has no products.
   */
  function FetchAlternativeTransport(catalog: seq<TransportItem>, resp: Response<Option<CartPage>>): (r: seq<TransportItem>)
    requires IdsArePositions(catalog)
    ensures resp.Threw? || resp.data.None? || resp.data.value.carts.None? ==> r == []
    ensures resp.Answered? && resp.data.Some? && resp.data.value.carts.Some? ==>
      var cs := resp.data.value.carts.value;
      ((exists j :: 0 <= j < |cs| && !IsUsableCart(cs[j])) ==> r == [])
      && ((forall j :: 0 <= j < |cs| ==> IsUsableCart(cs[j])) ==> r == FlattenCarts(catalog, cs))
  {
    match resp
    case Answered(Some(CartPage(Some(cs)))) =>
      // a null cart, or one without products, makes the mapping throw, and the catch returns []
      if forall j :: 0 <= j < |cs| ==> IsUsableCart(cs[j]) then FlattenCarts(catalog, cs) else []
    case _ => []
  }

  /** Every flattened item's id is cart id * 100 + k, with k < 3, for one of the carts. */
  lemma {:induction false} FlattenCartsIdShape(catalog: seq<TransportItem>, cs: seq<Cart>)
    requires IdsArePositions(catalog)
    requires forall j :: 0 <= j < |cs| ==> IsUsableCart(cs[j])
    ensures forall x :: x in FlattenCarts(catalog, cs) ==> exists j :: 0 <= j < |cs| && x.id / 100 == cs[j].id && x.id % 100 < CartLimit
  {
    if cs != [] {
      var head := TransformCart(catalog, cs[0]);
      var tail := FlattenCarts(catalog, cs[1..]);
      FlattenCartsIdShape(catalog, cs[1..]);
      assert FlattenCarts(catalog, cs) == head + tail;
      forall x: TransportItem | x in head + tail
        ensures exists j :: 0 <= j < |cs| && x.id / 100 == cs[j].id && x.id % 100 < CartLimit
      {
        if x in head {
          var k :| 0 <= k < |head| && head[k] == x;
          assert x.id / 100 == cs[0].id;
        } else {
          var j :| 0 <= j < |cs[1..]| && x.id / 100 == cs[1..][j].id && x.id % 100 < CartLimit;
          assert cs[1..][j] == cs[j + 1];
        }
      }
    }
  }

  /** Item ids from different carts cannot collide when the cart ids differ. */
  lemma {:induction false} FlattenCartsIdsDistinct(catalog: seq<TransportItem>, cs: seq<Cart>)
    requires IdsArePositions(catalog)
    requires forall j :: 0 <= j < |cs| ==> IsUsableCart(cs[j])
    requires forall i, j :: 0 <= i < j < |cs| && cs[i].Cart? && cs[j].Cart? ==> cs[i].id != cs[j].id
    ensures forall a, b :: 0 <= a < b < |FlattenCarts(catalog, cs)| ==> FlattenCarts(catalog, cs)[a].id != FlattenCarts(catalog, cs)[b].id
  {
    if cs != [] {
      FlattenCartsIdsDistinct(catalog, cs[1..]);
      FlattenCartsIdShape(catalog, cs[1..]);
      var head := TransformCart(catalog, cs[0]);
      var tail := FlattenCarts(catalog, cs[1..]);
      var r := FlattenCarts(catalog, cs);
      assert r == head + tail;
      forall a, b | 0 <= a < b < |r|
        ensures r[a].id != r[b].id
      {
        if b < |head| {
          assert r[a] == head[a] && r[b] == head[b];
        } else if a < |head| {
          assert r[a] == head[a];
          assert r[b] == tail[b - |head|];
          assert r[b] in tail;
          var j :| 0 <= j < |cs[1..]| && r[b].id / 100 == cs[1..][j].id && r[b].id % 100 < CartLimit;
          assert cs[1..][j] == cs[j + 1];
          assert r[a].id / 100 == cs[0].id;
        } else {
          assert r[a] == tail[a - |head|] && r[b] == tail[b - |head|];
        }
      }
    }
  }
}

=== FILE: transport_slice.dfy ===
/**
 * The transport slice: the loaded items, a loading flag and an error message, which
 * three reducers assign. It is never loading and failed at once.
 */
module TransportSlice {
  import opened Wrappers
  import opened Types

  class TransportState {
    var items: seq<TransportItem>
    var isLoading: bool
    var error: Option<string>

    /** A load in progress carries no error. */
    ghost predicate Valid()
      reads this
    {
      !(isLoading && error.Some?)
    }

    /** The initial state: no items, not loading, no error. */
    constructor ()
      ensures Valid()
      ensures items == [] && !isLoading && error == None
    {
      items := [];
      isLoading := false;
      error := None;
    }

    /** fetchTransportStart: loading, the error cleared, the items kept; Valid() holds from any state. */
    method FetchTransportStart()
      modifies this
      ensures Valid()
      ensures isLoading && error == None && items == old(items)
    {
      isLoading := true;
      error := None;
    }

    /** fetchTransportSuccess: the payload becomes the items; not loading, no error. */
    method FetchTransportSuccess(payload: seq<TransportItem>)
      modifies this
      ensures Valid()
      ensures !isLoading && error == None && items == payload
    {
      isLoading := false;
      items := payload;
      error := None;
    }

    /** fetchTransportFailure: not loading, the message kept as the error, the items kept. */
    method FetchTransportFailure(message: string)
      modifies this
      ensures Valid()
      ensures !isLoading && error == Some(message) && items == old(items)
    {
      isLoading := false;
      error := Some(message);
    }
  }
}

=== FILE: types.dfy ===
/** The app's records: a signed-in user and a displayable transport item. */
module Types {
  import opened Wrappers

  /** A user record; `token` is optional, as in the app's type. */
  datatype User = User(
    id: int,
    username: string,
    email: string,
    firstName: string,
    lastName: string,
    token: Option<string>)

  /** The item's `type` field. */
  datatype Kind = Bus | Train | Destination | Car | TukTuk

  datatype Status = Active | Upcoming | Popular | Delayed

  /** A destination or a route. `rating` is held in tenths (4.8 is 48). */
  datatype TransportItem = TransportItem(
    id: int,
    title: string,
    description: string,
    kind: Kind,
    status: Status,
    image: string,
    departureTime: Option<string>,
    arrivalTime: Option<string>,
    price: Option<int>,
    location: Option<string>,
    rating: Option<int>,
    route: Option<string>,
    from: Option<string>,
    to: Option<string>,
    distance: Option<string>,
    duration: Option<string>)
}

=== FILE: validation.dfy ===
/**
 * The four form schemas as predicates over the submitted strings: required fields,
 * minimum lengths, character classes and equality between fields. The email format
 * test belongs to the validation library and is the parameter `isEmail`.
 */
module Validation {
  import opened Text

  datatype LoginForm = LoginForm(username: string, password: string)

  datatype RegisterForm = RegisterForm(
    firstName: string, lastName: string, email: string,
    username: string, password: string, confirmPassword: string)

  datatype EditProfileForm = EditProfileForm(firstName: string, lastName: string, email: string)

  datatype ChangePasswordForm = ChangePasswordForm(currentPassword: string, newPassword: string, confirmPassword: string)

  /** Some character of `s` satisfies `p`: the test of a one-class pattern such as [A-Z]. */
  function Any(s: string, p: char -> bool): (r: bool)
    ensures r <==> exists i :: 0 <= i < |s| && p(s[i])
  {
    if s == [] then false
    else if p(s[0]) then true
    else
      var rest := Any(s[1..], p);
      assert rest ==> exists i :: 0 < i < |s| && p(s[i]) by {
        if rest {
          var j :| 0 <= j < |s[1..]| && p(s[1..][j]);
          assert s[j + 1] == s[1..][j];
        }
      }
      rest
  }

  /** Every character of `s` satisfies `p`. */
  function All(s: string, p: char -> bool): (r: bool)
    ensures r <==> forall i :: 0 <= i < |s| ==> p(s[i])
  {
    if s == [] then true
    else if !p(s[0]) then false
    else
      var rest := All(s[1..], p);
      assert rest <== forall i :: 1 <= i < |s| ==> p(s[i]) by {
        if forall i :: 1 <= i < |s| ==> p(s[i]) {
          forall j | 0 <= j < |s[1..]|
            ensures p(s[1..][j])
          {
            assert s[1..][j] == s[j + 1];
          }
        }
      }
      rest
  }

  predicate IsUpper(c: char) { 'A' <= c <= 'Z' }

  predicate IsLower(c: char) { 'a' <= c <= 'z' }

  /** A character of the class [a-zA-Z0-9_]. */
  predicate IsWordChar(c: char) { IsUpper(c) || IsLower(c) || IsDigit(c) || c == '_' }

  /** `required()` followed by `min(n)`: a non-empty value of at least n characters. */
  predicate RequiredMin(s: string, n: nat)
  {
    s != [] && |s| >= n
  }

  /** A first or last name: required, at least 2 characters. */
  function NameValid(s: string): (r: bool)
    ensures r <==> |s| >= 2
  {
    RequiredMin(s, 2)
  }

  /** A register username: required, at least 3 characters, all of them in [a-zA-Z0-9_]. */
  function UsernameValid(s: string): (r: bool)
    ensures r <==> |s| >= 3 && forall i :: 0 <= i < |s| ==> IsWordChar(s[i])
  {
    RequiredMin(s, 3) && All(s, IsWordChar)
  }

  /**
   * A new password: required, at least 6 characters, with an upper-case letter,
   * a lower-case letter and a digit.
   */
  function StrongPassword(s: string): (r: bool)
    ensures r <==> (|s| >= 6
                    && (exists i :: 0 <= i < |s| && IsUpper(s[i]))
                    && (exists i :: 0 <= i < |s| && IsLower(s[i]))
                    && (exists i :: 0 <= i < |s| && IsDigit(s[i])))
  {
    RequiredMin(s, 6) && Any(s, IsUpper) && Any(s, IsLower) && Any(s, IsDigit)
  }

  /** A confirmation field: required, and equal to the field it confirms. */
  predicate ConfirmValid(confirm: string, original: string)
  {
    confirm != [] && confirm == original
  }

  /** loginValidationSchema. */
  function LoginValid(f: LoginForm): (r: bool)
    ensures r <==> |f.username| >= 3 && |f.password| >= 6
  {
    RequiredMin(f.username, 3) && RequiredMin(f.password, 6)
  }

  /** registerValidationSchema. */
  function RegisterValid(f: RegisterForm, isEmail: string -> bool): (r: bool)
    ensures r <==> (|f.firstName| >= 2 && |f.lastName| >= 2
                    && f.email != [] && isEmail(f.email)
                    && |f.username| >= 3 && (forall i :: 0 <= i < |f.username| ==> IsWordChar(f.username[i]))
                    && StrongPassword(f.password) && f.confirmPassword == f.password)
  {
    NameValid(f.firstName) && NameValid(f.lastName)
    && f.email != [] && isEmail(f.email)
    && UsernameValid(f.username)
    && StrongPassword(f.password)
    && ConfirmValid(f.confirmPassword, f.password)
  }

  /** editProfileValidationSchema. */
  function EditProfileValid(f: EditProfileForm, isEmail: string -> bool): (r: bool)
    ensures r <==> |f.firstName| >= 2 && |f.lastName| >= 2 && f.email != [] && isEmail(f.email)
  {
    NameValid(f.firstName) && NameValid(f.lastName) && f.email != [] && isEmail(f.email)
  }

  /** changePasswordValidationSchema. */
  function ChangePasswordValid(f: ChangePasswordForm): (r: bool)
    ensures r <==> (|f.currentPassword| >= 6 && StrongPassword(f.newPassword)
                    && f.newPassword != f.currentPassword && f.confirmPassword == f.newPassword)
  {
    RequiredMin(f.currentPassword, 6)
    && StrongPassword(f.newPassword) && f.newPassword != f.currentPassword
    && ConfirmValid(f.confirmPassword, f.newPassword)
  }

  /** A username and password the register form accepts are accepted by the login form. */
  lemma RegisterImpliesLogin(f: RegisterForm, isEmail: string -> bool)
    requires RegisterValid(f, isEmail)
    ensures LoginValid(LoginForm(f.username, f.password))
  {
  }

  /** The register form and the edit-profile form apply the same rules to the shared fields. */
  lemma RegisterAgreesWithEditProfile(f: RegisterForm, isEmail: string -> bool)
    requires RegisterValid(f, isEmail)
    ensures EditProfileValid(EditProfileForm(f.firstName, f.lastName, f.email), isEmail)
  {
  }

  /** A password the change-password form accepts as new is one the register form accepts, and one login accepts. */
  lemma NewPasswordIsStrong(f: ChangePasswordForm, username: string)
    requires ChangePasswordValid(f) && |username| >= 3
    ensures StrongPassword(f.newPassword)
    ensures LoginValid(LoginForm(username, f.newPassword))
  {
  }
}

=== FILE: wrappers.dfy ===
/** Optional values (JavaScript's null/undefined) and error-carrying results (a thrown Error). */
module Wrappers {

  datatype Option<+T> = None | Some(value: T)

  datatype Result<+T, +E> = Ok(value: T) | Err(error: E)
}
